=== FILE: README.md ===
# Media library migration: a Dafny model of the dispatch pipeline

`convert.js` migrates a photo and video library into space-efficient formats.
It walks an input tree. For every file it reads the metadata and picks one of
three strategies:

- convert the image to HEIC;
- convert the video to HEVC;
- copy the original unchanged.

It writes the result under an output root, mirroring the input path, and
stamps the capture date onto the output. A run report lists the files that
failed and the outputs that came out larger than their originals.

This project models that pipeline as pure functions over an abstract
filesystem (a map from path to file). The external tools are an oracle
`World` that says how each call turns out: the metadata reader, `mkdir`, the
image and video encoders, the byte copy, and the metadata writer with `utimes`
and `rm`. Every effect a strategy has is also recorded as an `Action`, so that
the order of the steps can be stated.

| module | file | models |
|---|---|---|
| `Base` | base.dfy | `Option`, `Result`, suffix test |
| `Paths` | paths.dfy | the POSIX `join`, `parse`, `format` and `basename` of Node's `path` module, as far as the script relies on them |
| `TreeWalk` | walk.dfy | `getFiles`: recursive listing, hidden files skipped; a worklist implementation proved equal to the recursive definition |
| `Metadata` | metadata.dfy | the metadata record and the capture-date fallback chain of `setDateTime` |
| `Classifier` | classifier.dfy | the image / video / copy decision and the two skip lists |
| `Strategies` | strategies.dfy | the extension rules, the output-path builder, `throwIfFileExists`, `checkFileSizes`, `setDateTime` and the three strategies |
| `RunLoop` | loop.dfy | the dispatch loop as a fold over the file list, whatever one iteration does, and the run report it keeps |
| `Pipeline` | pipeline.dfy | one iteration of the loop, the whole run, and the final summary |

Two kinds of failure are kept apart, as in the script:

- **Per-file failures** are caught and recorded in the failed list. The loop
  goes on. They are:
  - an existing destination;
  - an encoder or copy error;
  - a date that cannot be read;
  - a failing `stat`.
- **Run-ending failures** are thrown outside every `try` and end the run. They
  are:
  - unreadable metadata;
  - a missing MIME type;
  - a failing `mkdir`;
  - a failing directory listing.

A failure of the date writer, `utimes` or the backup removal is swallowed
inside `setDateTime`. It is neither.

## Model

| member | source | states |
|---|---|---|
| Classifier.Classify | convert.js:173-186 | A file is converted as an image exactly when its MIME type starts with `image` and is not on the image skip list. It is converted as a video exactly when that fails, the MIME type starts with `video` and the codec is not on the video skip list (an absent codec never is). Every other file is copied. |
| Classifier.SkipListsOnlyDivertToCopy | convert.js:1-2 | Extending either skip list can only turn a conversion into a copy. It never turns an image conversion into a video conversion or back. |
| Classifier.DefaultClassification | convert.js:1-2 | With the shipped lists: JPEG becomes an image conversion; HEIC is copied; an mpeg4 QuickTime is converted; an `hvc1` QuickTime is copied; an MP4 without codec is converted; a PDF is copied. |
| Metadata.OrChain | convert.js:139 | The `\|\|` chain returns one of its operands. That operand is truthy exactly when some operand is. |
| Metadata.OrChainPicksFirstTruthy | convert.js:139 | The chain returns the first truthy operand. |
| Metadata.OrChainNoneTruthy | convert.js:139 | With no truthy operand, the chain returns the last one, the file-modify date. |
| Metadata.ChooseDate | convert.js:139-143 | A chosen instant is always a parsed date taken from one of the five fields. A parsed file-modify date guarantees that some date is chosen. |
| Metadata.ChooseDateSpec | convert.js:139-143 | The fallback chain in full. The first truthy field wins if it is a parsed date. If it is a raw string, or no field is truthy, the file-modify date alone decides, and it is an error unless it is a parsed date. |
| Metadata.OriginalDateUsedWhenCreationMissing | convert.js:139 | Without a creation date, a parsed original date is the one written. |
| Paths.SplitExtension | convert.js:84 | `parse` splits a base name into name and extension that concatenate back to it. The extension is empty or starts with the last dot. A non-empty base keeps a non-empty name. |
| Paths.Parse | convert.js:84 | The parsed base never holds a separator. It is name plus extension, split as SplitExtension says. |
| Paths.Join | convert.js:18 | `join` never yields the empty path (an empty result normalises to `.`). What the script needs of it, that an entry keeps its name, is stated by BasenameOfJoin. |
| Paths.Basename | convert.js:22 | A base name never holds a separator. |
| Paths.Format | convert.js:70-74 | `format` for a directory, a name and an extension. It has no contract of its own; FormatThenParse states that `parse` recovers all three from its result. |
| Paths.BasenameOfJoin | convert.js:18-22 | The base name of `join(dir, name)` is `name` for every plain name, so the hidden-file test looks at the entry's own name. |
| Paths.FormatThenParse | convert.js:70-74 | Parsing what `format` built gives back its directory, name and extension: `format` and `parse` are inverse. |
| Paths.SplitNewExtension | convert.js:89-92 | Giving a name a new one-word extension makes that word the extension `parse` sees. |
| TreeWalk.GetFiles | convert.js:15-29 | A root that cannot be listed fails the walk, and an empty root lists nothing. Which files a successful walk lists is stated by WalkMembership, and the order by WalkEntriesAppend. |
| TreeWalk.WalkEntriesAppend | convert.js:15-29 | The files listed from a concatenation of entries are the two listings concatenated, in order. One failing listing fails the walk. |
| TreeWalk.WalkMembership | convert.js:15-29 | A path is listed exactly when it is a non-directory reachable through the tree whose base name does not start with a dot. Directories are entered whatever their name. |
| TreeWalk.WalkListsOnlyVisible | convert.js:22-25 | Every listed path has a plain, non-hidden base name. |
| TreeWalk.HiddenDirectoryEntered | convert.js:19-20 | A directory whose name starts with a dot is still descended into. |
| TreeWalk.GetFilesIterative | convert.js:15-29 | The worklist walk returns exactly the recursive walk's result: the same files, in the same order, or the same failure. |
| Strategies.ToLower | convert.js:86 | Lower-casing keeps the length and maps every character through the ASCII lower-case table. |
| Strategies.VideoExtension | convert.js:86-87 | A converted video is always `.mov` or `.mp4`. It is `.mp4` exactly when the source extension lower-cases to `.mp4`. |
| Strategies.VideoExtensionIgnoresCase | convert.js:86-87 | The choice ignores the case of the source extension. |
| Strategies.VideoExtensionIdempotent | convert.js:86-87 | Choosing again from a chosen extension keeps it. |
| Strategies.VideoExtensionExamples | convert.js:86-87 | `.MP4` becomes `.mp4`. `.MOV`, `.avi` and no extension become `.mov`. |
| Strategies.TargetExtension | convert.js:86-92 | Images become `.heic` and videos `.mov` or `.mp4`. Copies keep the source extension. |
| Strategies.TargetExtensionSplits | convert.js:108-111 | The name with its target extension parses back into that name and that extension. |
| Strategies.OutputDirectory | convert.js:69 | The output directory is never the empty path. OutputKeepsSourceDirectory states which directory it is. |
| Strategies.OutputPath | convert.js:68-81 | `buildOutputPath` for the extension a strategy chose. It has no contract of its own; OutputPathShape states its directory, name and extension. |
| Strategies.OutputPathShape | convert.js:68-74 | The output path lies in the output directory. It keeps the source's name and carries the strategy's target extension. |
| Strategies.BackupPath | convert.js:150 | The metadata writer's backup is never the output itself and always ends in `_original`. |
| Strategies.ThrowIfFileExists | convert.js:40-50 | The check fails exactly when the path exists, and the error is that the file already exists. |
| Strategies.CheckFileSizes | convert.js:52-60 | A warning, naming the output, exactly when both files exist and the output is at least as large as the original. Success exactly when it is smaller. A missing file is a `stat` failure. |
| Strategies.SetDateTime | convert.js:138-154 | A date that cannot be chosen is an error. Otherwise the date is written first, and only the output and its backup can change. The output's size and embedded date follow OutputSize and OutputDate. When the write goes through, they are the size the writer leaves and the chosen instant. When it fails, they are what the file had. When the write and `utimes` succeed, the modification time is the chosen instant too. When the removal also succeeds, no backup is left. The stamper never encodes or copies. |
| Strategies.StampAndCompare | convert.js:99-100 | On a produced output: the date step, then the size comparison. The output ends at the size the stamper leaves. Warning and success follow the comparison. Failure comes exactly when no date can be chosen or the original is gone. Only the output's backup appears. |
| Strategies.EncodeAndStamp | convert.js:96-103 | The encoder runs first. The output exists exactly when the source is there and the encoder succeeds. Otherwise the file fails with the encoder error. The output's size is the encoder's, rewritten by the stamper. The verdicts are as StampAndCompare says. No file other than the output and its backup changes. |
| Strategies.StampOutcomeIrrelevant | convert.js:145-153 | Neither how the writer, `utimes` and the removal fare, nor the size the writer leaves, changes whether a produced output's file fails. A failure keeps its error. Warning and success may trade places, because the comparison sees the rewritten size. |
| Strategies.ConvertTo | convert.js:83-123 | Only `mkdir` escapes. Then come the existence check, the encoder, the date and the comparison, in that order. An existing destination fails the file with the existence error and nothing changed. Otherwise the output exists exactly when the encoder succeeded on a present source; if not, the file fails with the encoder error. Warnings and success follow the size comparison of the stamped output. Only the output and its backup can appear. |
| Strategies.ConvertMedia | convert.js:83-123 | Builds the output path, then does what ConvertTo states. Only a failing `mkdir` of the output directory escapes. An existing output path fails the file with the existence error: nothing changes and the encoder does not run. A file that does not fail leaves its output at that path. |
| Strategies.CopyTo | convert.js:125-136 | Only `mkdir` escapes. An exclusive copy never overwrites: an existing destination fails the file with nothing changed, with the existence error when the source is there. A missing source fails with the copy error, since the copy opens it first. No encoder runs, and a copy is never compared, so it never warns. The output exists exactly when the copy succeeded. It has the source's size and embedded capture date, as rewritten by the stamper (OutputSize, OutputDate). It is a success exactly when a date could also be chosen. |
| Strategies.CopyOriginalFile | convert.js:125-136 | Builds the output path with the source's own extension, then does what CopyTo states. Only a failing `mkdir` escapes. No encoder runs. An existing output path fails the file with nothing changed, with the existence error when the source is there. A file that does not fail leaves its output at that path. |
| RunLoop.FailedPlusWarnedAtMostFiles | convert.js:52-66 | The number of failed verdicts plus the number of warned verdicts never exceeds the number of files. |
| RunLoop.Record | convert.js:52-66 | Recording a file grows the failed list exactly when its verdict is a failure, and the warned list exactly when it is a warning, never both. Earlier entries are kept, and the loop continues from the file system the file left. |
| RunLoop.RecordFailedAgree | convert.js:62-66 | Recording a file adds it to the failed list exactly when its verdict is a failure, keeping the list in file order. |
| RunLoop.RecordWarnedAgree | convert.js:55-59 | Recording a file adds it to the warned list exactly when its verdict is a warning, keeping the list in file order. |
| RunLoop.Fold | convert.js:163-187 | A run ends early only at a file whose iteration throws. A completed run has one verdict per file. |
| RunLoop.FoldReportAgrees | convert.js:12-13 | After a completed run, the failed list holds each failed file once, in order, with its error. The warned list does the same for warnings. Their lengths count the failed and warned verdicts. |
| RunLoop.ReportListsDisjoint | convert.js:52-66 | A report that agrees with the verdicts never names one file both as failed and as warned. |
| RunLoop.FoldPrefix | convert.js:163-187 | The verdicts of a run over a prefix of the list are the beginning of the full run's verdicts. |
| RunLoop.FirstAbort | convert.js:163-187 | The reference definition of where a run stops: the first file on which an iteration throws, and none exactly when no file throws. |
| RunLoop.FoldStopsAtFirstAbort | convert.js:163-187 | When throwing depends on the file alone, the run completes exactly when no file throws, and otherwise stops at the first file that does. |
| RunLoop.FoldLeavesOtherFilesAlone | convert.js:163-187 | A path that every iteration keeps is unchanged by the whole run. |
| RunLoop.FoldKeepsOutputs | convert.js:163-187 | The output of a file that did not fail is still present at the end of the run. |
| RunLoop.FoldRefusesExisting | convert.js:163-187 | When every output already exists, the run fails every file, warns about none and changes nothing. Every file whose source is there fails with the existence error. |
| RunLoop.FoldSecondRunChangesNothing | convert.js:163-187 | Running the same file list again, from where a run without failures left the file system, changes nothing and fails every file. A file whose source is still there fails with the existence error. |
| RunLoop.FoldRefusesAt | convert.js:163-187 | A run that reaches a file whose source and output are present and kept fails it with the existence error. |
| RunLoop.FoldRerunRefusesKeptOutput | convert.js:163-187 | After any completed run, failures included: a file that did not fail, whose source was there and whose source and output the steps keep, is refused on the next run with the existence error. Its output comes through that run unchanged. |
| Pipeline.ProcessFile | convert.js:163-186 | An iteration throws exactly on unreadable metadata, a missing MIME type or a failing `mkdir`. Otherwise it creates the directory and then checks or copies exclusively. It runs the encoder for a conversion to a fresh destination, and never otherwise. An existing destination fails the file with nothing changed. The error is the existence error, except for a copy whose source is gone (a case the script never reaches; see Left out). A success leaves the output in place. Only a conversion warns, and it names the output. Nothing but the output's backup changes among the existing files. |
| Pipeline.Run | convert.js:159-187 | A run stops only at a file whose processing throws; a completed run has one verdict per file. |
| Pipeline.ProcessStepContract | convert.js:163-186 | One iteration throws depending on the file alone. It keeps every existing non-backup file. It leaves its output unless it failed. It refuses an output that already exists, with the existence error while the source is there. |
| Pipeline.RunLeavesOtherFilesAlone | convert.js:138-154 | A completed run never changes or deletes an existing file whose name does not end in `_original`. In particular such sources are never modified. |
| Pipeline.RunAbortsOnlyOnAbortPaths | convert.js:163-187 | A run completes exactly when no file hits a run-ending failure. An ended run processed every earlier file. |
| Pipeline.RunKeepsOutputs | convert.js:163-187 | Every file that did not fail has its output present when the run ends. |
| Pipeline.RerunRefusesEveryFile | convert.js:40-50 | With every output already present, a run fails every file, warns about none and changes nothing. Every file whose source is present fails with the existence error. |
| Pipeline.SecondRunChangesNothing | convert.js:163-187 | A second run over the same file list, with the same tool answers, after a failure-free run changes nothing and fails every file. Every source that was there and is not named like a backup fails with the existence error. |
| Pipeline.RerunRefusesConvertedFile | convert.js:40-50 | After any completed run, failed files included, a second run over the same file list with the same tool answers refuses each file that did not fail with the existence error, and that file's output comes through the second run unchanged. |
| Pipeline.StampFailureSwallowed | convert.js:145-153 | However the writer, `utimes` and the removal fare, and whatever size the writer leaves, a file fails exactly when it failed before, with the same error. A copy's verdict does not change at all. A conversion's warning and success may trade places, because the size comparison sees the rewritten output. |
| Pipeline.Migrate | convert.js:159-203 | A failing listing ends the migration before any file. A finished migration reports every listed file. Processed is total minus failed, and never fewer than the warned. Its failed and warned lists agree with the verdicts, and no file is in both. A stop other than the listing happens only at a file with a run-ending failure. |
| Pipeline.WalkedFilesKeepTheirNames | convert.js:68-74 | Every listed file's output path lies in its output directory. It keeps the file's name and carries the strategy's extension. |
| Pipeline.OutputKeepsSourceDirectory | convert.js:69 | The output directory is the output root joined with the source's whole directory, input root included. |

## Left out

- Logging: the progress lines, the per-file messages and the final printed lists are not modelled. The counts and lists they print are.
- Command-line arguments: the two roots are a `Config` value.
- Closing the metadata tool (`exiftool.end()`) is not modelled.
- Concurrency and timing: the script awaits every call in sequence, and the model is sequential.
- The external tools are an oracle (`World`) keyed by path:
  - the metadata reader;
  - `mkdir`;
  - the two encoders (only whether they succeed and the size they produce);
  - the byte copy;
  - the date writer: how the write, `utimes` and the removal fare, and the size of the rewritten file.
  What these tools do inside, the command lines built for them and shell quoting are not modelled.
- Dates are abstract instants (`int`). Time zones, and the formatting done by the metadata tool, are not modelled.
- Strategies.ToLower: ASCII only. JavaScript's `toLowerCase` also maps non-ASCII letters. Only the results `.mov` and `.mp4` matter to the decision, so ASCII is exact for it.
- Strategies.EncodeAndStamp: a failing encoder is assumed to leave no partial output file.
- Strategies.SetDateTime: a failing metadata write is assumed to leave the output as it was.
- Strategies.Produced: a conversion needs its source to be present, as the copy does, because an encoder given a missing input fails.
- Pipeline.StampFailureSwallowed: requires that the source is not the output's backup name. When it is, the removal of the backup deletes the source and the size check fails.
- Pipeline.RunKeepsOutputs: requires the output path not to end in `_original`, since a later file's backup removal could delete such an output.
- Pipeline.SecondRunChangesNothing: requires every output path not to end in `_original`, for the same reason. The existence error is stated only for sources that are present and not named like a backup, because in the model a copy whose source is gone fails with the copy error instead (see the line on the metadata reader below). The second run goes over the first run's file list with the same metadata answers. The script walks the tree and reads the metadata again (convert.js:159, 166), so this is what the script does only when the output tree does not overlap the input tree and the input is otherwise unchanged. With `node convert.js photos photos/converted`, the second walk would list the first run's outputs and copy them again.
- Pipeline.RerunRefusesConvertedFile: requires the file's source to be present and neither the source nor the output to be named like a backup, for the same reasons. Like SecondRunChangesNothing, it takes the second run over the same file list and metadata answers, which is what the script does only when the output tree does not overlap the input tree and the input is unchanged.
- RunLoop.FoldSecondRunChangesNothing: the second run is over the same file list with the same step, for the same reason as SecondRunChangesNothing.
- The directory listing and the metadata reader are oracles independent of the file-system map. A source can therefore be absent when its turn comes and still reach a strategy, which fails the file with the copy or encoder error and lets the run go on. In the script the metadata read of a missing file fails, so convert.js:173-174 throws outside every `try` and the run ends. The model's missing-source failures stand for that run-ending metadata failure; the script never calls `copyFile` or an encoder on a missing source. For example, an output path plus `_original` can name a source listed earlier; the first run's backup removal deletes it, and the script's next run ends at that file, while the model's runs complete.
- The output directory joins the output root with the source's whole parsed directory. That directory includes the input root, because `getFiles` lists paths under it (convert.js:69). The model follows the code, not a reading in which the tree below the input root is mirrored.
- Paths: only the POSIX behaviour of `join`, `parse`, `format` and `basename` is modelled. Windows paths are not.
- TreeWalk: a directory entry's name is a plain segment (no separator, not `.` or `..`), as a directory listing guarantees. Symbolic links count as non-directories, as `isDirectory` on a directory entry reports them.

=== FILE: base.dfy ===
/** Small failure-carrying datatypes shared by every module of the model. */
module Base {

  /** A value that may be absent (JavaScript's `undefined`). */
  datatype Option<+T> = None | Some(value: T)

  /** The outcome of an operation that either yields a value or fails with an error. */
  datatype Result<+T, +E> = Ok(value: T) | Err(error: E)

  /** True iff `suffix` ends `s`. */
  predicate EndsWith(s: string, suffix: string)
  {
    |suffix| <= |s| && s[|s| - |suffix|..] == suffix
  }
}

=== FILE: classifier.dfy ===
/**
 The per-file decision of the dispatch loop (convert.js:171-186): convert as
 an image, convert as a video, or copy the original, from the MIME type, the
 codec identifier and the two run-wide skip lists (convert.js:1-2).
 */
module Classifier {
  import opened Base

  datatype Disposition = ConvertImage | ConvertVideo | CopyOriginal

  /** The run-wide skip lists: image MIME types and video codecs that are copied, not converted. */
  datatype SkipLists = SkipLists(imageMimes: seq<string>, videoCodecs: seq<string>)

  /** The script's configuration: HEIC images and HEVC (`hvc1`) videos are already efficient. */
  const DefaultSkipLists: SkipLists := SkipLists(["image/heic"], ["hvc1"])

  /**
   A MIME type that starts with `image` and is not on the image skip list
   selects the image strategy; otherwise one that starts with `video`, with a
   codec not on the video skip list (an absent codec is never on it), selects
   the video strategy; everything else is copied.
   */
  function Classify(skip: SkipLists, mime: string, codec: Option<string>): (d: Disposition)
    ensures d == ConvertImage <==> "image" <= mime && mime !in skip.imageMimes
    ensures d == ConvertVideo <==>
      !("image" <= mime && mime !in skip.imageMimes) &&
      "video" <= mime && !(codec.Some? && codec.value in skip.videoCodecs)
  {
    if "image" <= mime && mime !in skip.imageMimes then ConvertImage
    else if "video" <= mime && !(codec.Some? && codec.value in skip.videoCodecs) then ConvertVideo
    else CopyOriginal
  }

  /** Longer skip lists only ever turn a conversion into a copy, never one conversion into the other. */
  lemma SkipListsOnlyDivertToCopy(small: SkipLists, large: SkipLists, mime: string, codec: Option<string>)
    requires forall m :: m in small.imageMimes ==> m in large.imageMimes
    requires forall c :: c in small.videoCodecs ==> c in large.videoCodecs
    ensures Classify(large, mime, codec) == Classify(small, mime, codec) ||
            Classify(large, mime, codec) == CopyOriginal
  {
    if mime in large.imageMimes && "image" <= mime {
      assert !("video" <= mime) by {
        assert mime[0] == 'i';
      }
    }
  }

  /** The script's configuration on the documented examples. */
  lemma DefaultClassification()
    ensures Classify(DefaultSkipLists, "image/jpeg", None) == ConvertImage
    ensures Classify(DefaultSkipLists, "image/heic", None) == CopyOriginal
    ensures Classify(DefaultSkipLists, "video/quicktime", Some("mpeg4")) == ConvertVideo
    ensures Classify(DefaultSkipLists, "video/quicktime", Some("hvc1")) == CopyOriginal
    ensures Classify(DefaultSkipLists, "video/mp4", None) == ConvertVideo
    ensures Classify(DefaultSkipLists, "application/pdf", None) == CopyOriginal
  {
    assert "image" <= "image/heic";
    assert "video"[0] != "image/heic"[0];
  }
}

=== FILE: loop.dfy ===
/**
 The shape of the dispatch loop (convert.js:163-187), independent of what one
 iteration does: files are taken in list order, each iteration either yields
 the file's result or throws past the loop and ends the run, and the run
 report collects the failures and the warnings as the loop goes.
 */
module RunLoop {
  import opened Base
  import opened Strategies

  /** One iteration of the loop body: a file and the current file system in, its result out. */
  type Step = (string, FileSystem) -> Result<FileResult, Abort>

  /** An entry of the failed list: the file, by position and path, and its error (`errorHandler`). */
  datatype FailedFile = FailedFile(index: nat, path: string, error: Error)

  /** An entry of the warned list: the file and the output it warns about (`checkFileSizes`). */
  datatype WarnedFile = WarnedFile(index: nat, path: string, output: string)

  /** The state the loop threads from file to file. */
  datatype RunState = RunState(fs: FileSystem, failed: seq<FailedFile>, warned: seq<WarnedFile>, verdicts: seq<Verdict>)

  /** A run either reaches its end, or stops at the file whose processing threw outside every `try`. */
  datatype RunOutcome = Completed(state: RunState) | Aborted(index: nat, reason: Abort)

  function CountFailed(vs: seq<Verdict>): (n: nat)
    ensures n <= |vs|
  {
    if vs == [] then 0 else CountFailed(vs[..|vs| - 1]) + (if vs[|vs| - 1].Failed? then 1 else 0)
  }

  function CountWarned(vs: seq<Verdict>): (n: nat)
    ensures n <= |vs|
  {
    if vs == [] then 0 else CountWarned(vs[..|vs| - 1]) + (if vs[|vs| - 1].Warned? then 1 else 0)
  }

  /** A verdict is a failure or a warning, never both: the two lists together never outnumber the files. */
  lemma {:induction false} FailedPlusWarnedAtMostFiles(vs: seq<Verdict>)
    ensures CountFailed(vs) + CountWarned(vs) <= |vs|
  {
    if vs != [] {
      FailedPlusWarnedAtMostFiles(vs[..|vs| - 1]);
    }
  }

  /**
   The failed list agrees with the verdicts: it holds, in file order and at
   most once each, exactly the files whose verdict is a failure, with that
   failure's error.
   */
  ghost predicate FailedAgree(files: seq<string>, st: RunState)
    requires |st.verdicts| == |files|
  {
    && (forall k :: 0 <= k < |st.failed| ==>
          st.failed[k].index < |files| && st.failed[k].path == files[st.failed[k].index] &&
          st.verdicts[st.failed[k].index] == Failed(st.failed[k].error))
    && (forall k, l :: 0 <= k < l < |st.failed| ==> st.failed[k].index < st.failed[l].index)
    && |st.failed| == CountFailed(st.verdicts)
  }

  /** The warned list agrees with the verdicts, as FailedAgree says for the failures. */
  ghost predicate WarnedAgree(files: seq<string>, st: RunState)
    requires |st.verdicts| == |files|
  {
    && (forall k :: 0 <= k < |st.warned| ==>
          st.warned[k].index < |files| && st.warned[k].path == files[st.warned[k].index] &&
          st.verdicts[st.warned[k].index] == Warned(st.warned[k].output))
    && (forall k, l :: 0 <= k < l < |st.warned| ==> st.warned[k].index < st.warned[l].index)
    && |st.warned| == CountWarned(st.verdicts)
  }

  /** The run report agrees with the verdicts, one verdict per file. */
  ghost predicate ReportAgrees(files: seq<string>, st: RunState)
  {
    |st.verdicts| == |files| && FailedAgree(files, st) && WarnedAgree(files, st)
  }

  /** A report that agrees with the verdicts never names one file both as failed and as warned. */
  lemma ReportListsDisjoint(files: seq<string>, st: RunState)
    requires ReportAgrees(files, st)
    ensures forall k, l :: 0 <= k < |st.failed| && 0 <= l < |st.warned| ==> st.failed[k].index != st.warned[l].index
  {
    forall k, l | 0 <= k < |st.failed| && 0 <= l < |st.warned|
      ensures st.failed[k].index != st.warned[l].index
    {
      assert st.verdicts[st.failed[k].index].Failed?;
      assert st.verdicts[st.warned[l].index].Warned?;
    }
  }

  /**
   The bookkeeping after file `i` was processed (convert.js:58, 65): the
   failure goes to the failed list, or the warning to the warned list, never
   both; earlier entries stay as they were, and the loop goes on from the
   file system the file left behind.
   */
  function Record(st: RunState, i: nat, path: string, res: FileResult): (r: RunState)
    ensures r.fs == res.fs
    ensures st.failed <= r.failed && st.warned <= r.warned && st.verdicts <= r.verdicts
    ensures |r.failed| + |r.warned| <= |st.failed| + |st.warned| + 1
    ensures |r.failed| > |st.failed| <==> res.verdict.Failed?
    ensures |r.warned| > |st.warned| <==> res.verdict.Warned?
  {
    RunState(
      res.fs,
      if res.verdict.Failed? then st.failed + [FailedFile(i, path, res.verdict.error)] else st.failed,
      if res.verdict.Warned? then st.warned + [WarnedFile(i, path, res.verdict.output)] else st.warned,
      st.verdicts + [res.verdict])
  }

  /** Counting the failures of one more verdict. */
  lemma CountFailedSnoc(vs: seq<Verdict>, v: Verdict)
    ensures CountFailed(vs + [v]) == CountFailed(vs) + (if v.Failed? then 1 else 0)
  {
    assert (vs + [v])[..|vs|] == vs;
  }

  /** Counting the warnings of one more verdict. */
  lemma CountWarnedSnoc(vs: seq<Verdict>, v: Verdict)
    ensures CountWarned(vs + [v]) == CountWarned(vs) + (if v.Warned? then 1 else 0)
  {
    assert (vs + [v])[..|vs|] == vs;
  }

  /** Recording one more file keeps the failed list in agreement with the verdicts. */
  lemma RecordFailedAgree(files: seq<string>, st: RunState, res: FileResult)
    requires |files| > 0 && |st.verdicts| == |files| - 1 && FailedAgree(files[..|files| - 1], st)
    ensures FailedAgree(files, Record(st, |files| - 1, files[|files| - 1], res))
  {
    var i := |files| - 1;
    var vs := st.verdicts + [res.verdict];
    CountFailedSnoc(st.verdicts, res.verdict);
    forall k | 0 <= k < |st.failed|
      ensures st.failed[k].path == files[st.failed[k].index]
      ensures vs[st.failed[k].index] == Failed(st.failed[k].error)
    {
      assert files[..i][st.failed[k].index] == files[st.failed[k].index];
    }
    if res.verdict.Failed? {
      var failed := st.failed + [FailedFile(i, files[i], res.verdict.error)];
      forall k | 0 <= k < |failed|
        ensures failed[k].index < |files| && failed[k].path == files[failed[k].index]
        ensures vs[failed[k].index] == Failed(failed[k].error)
      {
        if k < |st.failed| {
          assert failed[k] == st.failed[k];
        }
      }
    }
  }

  /** Recording one more file keeps the warned list in agreement with the verdicts. */
  lemma RecordWarnedAgree(files: seq<string>, st: RunState, res: FileResult)
    requires |files| > 0 && |st.verdicts| == |files| - 1 && WarnedAgree(files[..|files| - 1], st)
    ensures WarnedAgree(files, Record(st, |files| - 1, files[|files| - 1], res))
  {
    var i := |files| - 1;
    var vs := st.verdicts + [res.verdict];
    CountWarnedSnoc(st.verdicts, res.verdict);
    forall k | 0 <= k < |st.warned|
      ensures st.warned[k].path == files[st.warned[k].index]
      ensures vs[st.warned[k].index] == Warned(st.warned[k].output)
    {
      assert files[..i][st.warned[k].index] == files[st.warned[k].index];
    }
    if res.verdict.Warned? {
      var warned := st.warned + [WarnedFile(i, files[i], res.verdict.output)];
      forall k | 0 <= k < |warned|
        ensures warned[k].index < |files| && warned[k].path == files[warned[k].index]
        ensures vs[warned[k].index] == Warned(warned[k].output)
      {
        if k < |st.warned| {
          assert warned[k] == st.warned[k];
        }
      }
    }
  }

  /**
   The loop as a fold over the file list, in list order. An iteration that
   yields a result is recorded and the loop goes on; one that throws ends the
   run at that file.
   */
  function Fold(step: Step, fs: FileSystem, files: seq<string>): (r: RunOutcome)
    decreases |files|
    ensures r.Aborted? ==> r.index < |files| && exists before :: step(files[r.index], before) == Err(r.reason)
    ensures r.Completed? ==> |r.state.verdicts| == |files|
  {
    if files == [] then Completed(RunState(fs, [], [], []))
    else
      var i := |files| - 1;
      match Fold(step, fs, files[..i])
      case Aborted(j, why) =>
        assert files[..i][j] == files[j];
        Aborted(j, why)
      case Completed(st) =>
        match step(files[i], st.fs)
        case Err(why) => Aborted(i, why)
        case Ok(res) => Completed(Record(st, i, files[i], res))
  }

  /** The last iteration of a completed run. */
  lemma FoldStep(step: Step, fs: FileSystem, files: seq<string>) returns (st: RunState, res: FileResult)
    requires files != [] && Fold(step, fs, files).Completed?
    ensures Fold(step, fs, files[..|files| - 1]) == Completed(st)
    ensures step(files[|files| - 1], st.fs) == Ok(res)
    ensures Fold(step, fs, files).state == Record(st, |files| - 1, files[|files| - 1], res)
  {
    st := Fold(step, fs, files[..|files| - 1]).state;
    res := step(files[|files| - 1], st.fs).value;
  }

  /** A run that completed on all but the last file, whose iteration yields a result, completes. */
  lemma FoldExtend(step: Step, fs: FileSystem, files: seq<string>, st: RunState, res: FileResult)
    requires files != [] && Fold(step, fs, files[..|files| - 1]) == Completed(st)
    requires step(files[|files| - 1], st.fs) == Ok(res)
    ensures Fold(step, fs, files) == Completed(Record(st, |files| - 1, files[|files| - 1], res))
  {
  }

  /** The report of a completed run agrees with its verdicts (convert.js:12-13, 62-66, 187, 189). */
  lemma {:induction false} FoldReportAgrees(step: Step, fs: FileSystem, files: seq<string>)
    requires Fold(step, fs, files).Completed?
    ensures ReportAgrees(files, Fold(step, fs, files).state)
  {
    if files != [] {
      var st, res := FoldStep(step, fs, files);
      FoldReportAgrees(step, fs, files[..|files| - 1]);
      RecordFailedAgree(files, st, res);
      RecordWarnedAgree(files, st, res);
    }
  }

  /** The run over a prefix of the list is the beginning of the run over the whole list. */
  lemma {:induction false} FoldPrefix(step: Step, fs: FileSystem, files: seq<string>, n: nat)
    requires Fold(step, fs, files).Completed? && n <= |files|
    ensures Fold(step, fs, files[..n]).Completed?
    ensures Fold(step, fs, files[..n]).state.verdicts == Fold(step, fs, files).state.verdicts[..n]
  {
    if n == |files| {
      assert files[..n] == files;
    } else {
      var i := |files| - 1;
      var st, res := FoldStep(step, fs, files);
      FoldPrefix(step, fs, files[..i], n);
      assert files[..i][..n] == files[..n];
    }
  }

  /** Whether an iteration throws depends on the file alone, as `aborts` says. */
  ghost predicate ThrowsExactly(step: Step, aborts: string -> bool)
  {
    forall src, fs :: step(src, fs).Err? <==> aborts(src)
  }

  /** The position of the first file on which an iteration throws, if any. */
  function FirstAbort(aborts: string -> bool, files: seq<string>): (r: Option<nat>)
    ensures r.None? <==> forall j :: 0 <= j < |files| ==> !aborts(files[j])
    ensures r.Some? ==>
      r.value < |files| && aborts(files[r.value]) && forall j :: 0 <= j < r.value ==> !aborts(files[j])
  {
    if files == [] then None
    else
      var i := |files| - 1;
      assert forall j :: 0 <= j < i ==> files[..i][j] == files[j];
      match FirstAbort(aborts, files[..i])
      case Some(j) => Some(j)
      case None => if aborts(files[i]) then Some(i) else None
  }

  /**
   Isolation: when whether an iteration throws depends on the file alone, the
   run stops exactly at the first file on which it throws, and completes when
   there is none.
   */
  lemma {:induction false} FoldStopsAtFirstAbort(step: Step, aborts: string -> bool, fs: FileSystem, files: seq<string>)
    requires ThrowsExactly(step, aborts)
    ensures Fold(step, fs, files).Completed? <==> FirstAbort(aborts, files).None?
    ensures Fold(step, fs, files).Aborted? ==> FirstAbort(aborts, files) == Some(Fold(step, fs, files).index)
  {
    if files != [] {
      FoldStopsAtFirstAbort(step, aborts, fs, files[..|files| - 1]);
    }
  }

  /** A step never changes an existing path that `keep` admits. */
  ghost predicate StepKeeps(step: Step, keep: string -> bool)
  {
    forall src, fs, k :: step(src, fs).Ok? && k in fs && keep(k) ==>
      k in step(src, fs).value.fs && step(src, fs).value.fs[k] == fs[k]
  }

  /** A step that does not fail leaves the file's output, `output(src)`, in the file system. */
  ghost predicate StepLeavesOutput(step: Step, output: string -> string)
  {
    forall src, fs :: step(src, fs).Ok? && !step(src, fs).value.verdict.Failed? ==>
      output(src) in step(src, fs).value.fs
  }

  /**
   A step whose output already exists fails and changes nothing; while its
   source is there, the failure is that the output already exists.
   */
  ghost predicate StepRefusesExisting(step: Step, output: string -> string)
  {
    forall src, fs :: step(src, fs).Ok? && output(src) in fs ==>
      step(src, fs).value.fs == fs && step(src, fs).value.verdict.Failed? &&
      (src in fs ==> step(src, fs).value.verdict == Failed(DestinationExists))
  }

  /** Paths that every step keeps are unchanged by the whole run. */
  lemma {:induction false} FoldLeavesOtherFilesAlone(step: Step, keep: string -> bool, fs: FileSystem, files: seq<string>, k: string)
    requires StepKeeps(step, keep)
    requires Fold(step, fs, files).Completed?
    requires k in fs && keep(k)
    ensures k in Fold(step, fs, files).state.fs && Fold(step, fs, files).state.fs[k] == fs[k]
  {
    if files != [] {
      var st, res := FoldStep(step, fs, files);
      FoldLeavesOtherFilesAlone(step, keep, fs, files[..|files| - 1], k);
    }
  }

  /** The output of a file that did not fail is still there at the end of the run, if every step keeps it. */
  lemma {:induction false} FoldKeepsOutputs(step: Step, keep: string -> bool, output: string -> string, fs: FileSystem, files: seq<string>, j: nat)
    requires StepKeeps(step, keep) && StepLeavesOutput(step, output)
    requires Fold(step, fs, files).Completed?
    requires j < |files| && !Fold(step, fs, files).state.verdicts[j].Failed?
    requires keep(output(files[j]))
    ensures output(files[j]) in Fold(step, fs, files).state.fs
  {
    var i := |files| - 1;
    var st, res := FoldStep(step, fs, files);
    if j < i {
      assert st.verdicts[j] == Fold(step, fs, files).state.verdicts[j];
      assert files[..i][j] == files[j];
      FoldKeepsOutputs(step, keep, output, fs, files[..i], j);
    }
  }

  /**
   A run over files that all get through their step and whose outputs all
   exist already completes, changes nothing, fails every file and warns about
   none.
   */
  lemma {:induction false} FoldRefusesExisting(step: Step, aborts: string -> bool, output: string -> string, fs: FileSystem, files: seq<string>)
    requires ThrowsExactly(step, aborts) && StepRefusesExisting(step, output)
    requires forall j :: 0 <= j < |files| ==> !aborts(files[j]) && output(files[j]) in fs
    ensures Fold(step, fs, files).Completed?
    ensures Fold(step, fs, files).state.fs == fs
    ensures |Fold(step, fs, files).state.failed| == |files|
    ensures Fold(step, fs, files).state.warned == []
    ensures forall j :: 0 <= j < |files| ==> Fold(step, fs, files).state.verdicts[j].Failed?
    ensures forall j :: 0 <= j < |files| && files[j] in fs ==>
      Fold(step, fs, files).state.verdicts[j] == Failed(DestinationExists)
  {
    if files != [] {
      var i := |files| - 1;
      assert forall j :: 0 <= j < i ==> files[..i][j] == files[j];
      FoldRefusesExisting(step, aborts, output, fs, files[..i]);
      var st := Fold(step, fs, files[..i]).state;
      assert !aborts(files[i]) && output(files[i]) in st.fs;
      var res := step(files[i], st.fs).value;
      FoldExtend(step, fs, files, st, res);
    }
  }

  /**
   Idempotence: after a run in which no file failed, a second run over the
   same files completes, changes nothing and fails every file.
   */
  lemma FoldSecondRunChangesNothing(step: Step, aborts: string -> bool, keep: string -> bool, output: string -> string, fs: FileSystem, files: seq<string>)
    requires ThrowsExactly(step, aborts) && StepKeeps(step, keep)
    requires StepLeavesOutput(step, output) && StepRefusesExisting(step, output)
    requires Fold(step, fs, files).Completed?
    requires forall j :: 0 <= j < |files| ==> !Fold(step, fs, files).state.verdicts[j].Failed? && keep(output(files[j]))
    ensures Fold(step, Fold(step, fs, files).state.fs, files).Completed?
    ensures Fold(step, Fold(step, fs, files).state.fs, files).state.fs == Fold(step, fs, files).state.fs
    ensures forall j :: 0 <= j < |files| ==> Fold(step, Fold(step, fs, files).state.fs, files).state.verdicts[j].Failed?
    ensures forall j :: 0 <= j < |files| && files[j] in Fold(step, fs, files).state.fs ==>
      Fold(step, Fold(step, fs, files).state.fs, files).state.verdicts[j] == Failed(DestinationExists)
  {
    var after := Fold(step, fs, files).state.fs;
    FoldStopsAtFirstAbort(step, aborts, fs, files);
    forall j | 0 <= j < |files| ensures output(files[j]) in after {
      FoldKeepsOutputs(step, keep, output, fs, files, j);
    }
    FoldRefusesExisting(step, aborts, output, after, files);
  }

  /**
   A run that reaches file `j` while its source and its output are there and
   kept refuses that file because its output exists.
   */
  lemma FoldRefusesAt(step: Step, keep: string -> bool, output: string -> string, fs: FileSystem, files: seq<string>, j: nat)
    requires StepKeeps(step, keep) && StepRefusesExisting(step, output)
    requires j < |files| && Fold(step, fs, files[..j + 1]).Completed?
    requires keep(output(files[j])) && keep(files[j]) && output(files[j]) in fs && files[j] in fs
    ensures Fold(step, fs, files[..j + 1]).state.verdicts[j] == Failed(DestinationExists)
  {
    var src := files[j];
    var upTo := files[..j + 1];
    assert upTo[..j] == files[..j] && upTo[j] == src;
    var st, res := FoldStep(step, fs, upTo);
    FoldLeavesOtherFilesAlone(step, keep, fs, files[..j], src);
    FoldLeavesOtherFilesAlone(step, keep, fs, files[..j], output(src));
  }

  /**
   Idempotence file by file, after any run, failures included: a file whose
   step did not fail, whose source and output the steps keep, and whose source
   was there, is refused on the next run over the same files because its
   output exists, and its output comes through that run unchanged.
   */
  lemma FoldRerunRefusesKeptOutput(step: Step, aborts: string -> bool, keep: string -> bool, output: string -> string, fs: FileSystem, files: seq<string>, j: nat)
    requires ThrowsExactly(step, aborts) && StepKeeps(step, keep)
    requires StepLeavesOutput(step, output) && StepRefusesExisting(step, output)
    requires Fold(step, fs, files).Completed?
    requires j < |files| && !Fold(step, fs, files).state.verdicts[j].Failed?
    requires keep(output(files[j])) && keep(files[j]) && files[j] in fs
    ensures Fold(step, Fold(step, fs, files).state.fs, files).Completed?
    ensures Fold(step, Fold(step, fs, files).state.fs, files).state.verdicts[j] == Failed(DestinationExists)
    ensures output(files[j]) in Fold(step, fs, files).state.fs
    ensures output(files[j]) in Fold(step, Fold(step, fs, files).state.fs, files).state.fs
    ensures Fold(step, Fold(step, fs, files).state.fs, files).state.fs[output(files[j])] ==
            Fold(step, fs, files).state.fs[output(files[j])]
  {
    var after := Fold(step, fs, files).state.fs;
    FoldStopsAtFirstAbort(step, aborts, fs, files);
    FoldStopsAtFirstAbort(step, aborts, after, files);
    FoldKeepsOutputs(step, keep, output, fs, files, j);
    FoldLeavesOtherFilesAlone(step, keep, fs, files, files[j]);
    FoldLeavesOtherFilesAlone(step, keep, after, files, output(files[j]));
    FoldPrefix(step, after, files, j + 1);
    FoldRefusesAt(step, keep, output, after, files, j);
  }
}

=== FILE: metadata.dfy ===
/**
 The metadata record the external metadata tool returns for a file, and the
 choice of capture date that `setDateTime` makes from it (convert.js:138-143).
 */
module Metadata {
  import opened Base

  /**
   A date-like metadata value: either one the tool parsed into a date object
   (it has `toDate()`, here an abstract instant) or a raw string it could not
   parse (no `toDate`).
   */
  datatype DateValue = Parsed(instant: int) | Unparsed(text: string)

  /** The fields of a metadata record the script reads; each may be absent. */
  datatype Exif = Exif(
    mimeType: Option<string>,
    compressorId: Option<string>,
    creationDate: Option<DateValue>,
    dateTimeOriginal: Option<DateValue>,
    mediaCreateDate: Option<DateValue>,
    createDate: Option<DateValue>,
    fileModifyDate: Option<DateValue>)

  /** JavaScript truthiness of a field: present, and not the empty string (a date object is always truthy). */
  predicate Truthy(v: Option<DateValue>)
  {
    v.Some? && (v.value.Parsed? || v.value.text != "")
  }

  /** The date fields in the order of the fallback chain. */
  function DateChain(x: Exif): (c: seq<Option<DateValue>>)
    ensures |c| == 5 && c[4] == x.fileModifyDate
  {
    [x.creationDate, x.dateTimeOriginal, x.mediaCreateDate, x.createDate, x.fileModifyDate]
  }

  /** JavaScript's `a || b || ... || z`: the first truthy operand, or the last one when none is. */
  function OrChain(vs: seq<Option<DateValue>>): (r: Option<DateValue>)
    requires |vs| > 0
    ensures r in vs
    ensures Truthy(r) <==> exists i :: 0 <= i < |vs| && Truthy(vs[i])
  {
    if |vs| == 1 || Truthy(vs[0]) then vs[0] else OrChain(vs[1..])
  }

  /** `vs[i]` is the first truthy value of `vs`. */
  predicate FirstTruthyAt(vs: seq<Option<DateValue>>, i: int)
  {
    0 <= i < |vs| && Truthy(vs[i]) && forall j :: 0 <= j < i ==> !Truthy(vs[j])
  }

  lemma {:induction false} OrChainPicksFirstTruthy(vs: seq<Option<DateValue>>, i: int)
    requires FirstTruthyAt(vs, i)
    ensures OrChain(vs) == vs[i]
  {
    if i > 0 {
      assert !Truthy(vs[0]);
      assert FirstTruthyAt(vs[1..], i - 1) by {
        forall j | 0 <= j < i - 1 ensures !Truthy(vs[1..][j]) {
          assert vs[1..][j] == vs[j + 1];
        }
      }
      OrChainPicksFirstTruthy(vs[1..], i - 1);
    }
  }

  lemma {:induction false} OrChainNoneTruthy(vs: seq<Option<DateValue>>)
    requires |vs| > 0
    requires forall j :: 0 <= j < |vs| ==> !Truthy(vs[j])
    ensures OrChain(vs) == vs[|vs| - 1]
  {
    if |vs| > 1 {
      assert !Truthy(vs[0]);
      assert forall j :: 0 <= j < |vs[1..]| ==> vs[1..][j] == vs[j + 1];
      OrChainNoneTruthy(vs[1..]);
    }
  }

  /** Why no date could be chosen: reading `toDate` of `undefined`, or calling it on a raw string. */
  datatype DateError = NoDateField | UnparsedModifyDate

  /** The file-modify date used on its own, as the fallback in the script does. */
  function ModifyDateOnly(x: Exif): Result<int, DateError>
  {
    match x.fileModifyDate
    case Some(Parsed(t)) => Ok(t)
    case Some(Unparsed(_)) => Err(UnparsedModifyDate)
    case None => Err(NoDateField)
  }

  /**
   The instant `setDateTime` writes (convert.js:139-143): the first truthy
   field of the chain; if that value is not a parsed date, the file-modify date
   instead. Both `undefined.toDate` and calling `toDate` on a string throw,
   which is reported as an error.
   */
  function ChooseDate(x: Exif): (r: Result<int, DateError>)
    ensures r.Ok? ==> Some(Parsed(r.value)) in DateChain(x)
    ensures x.fileModifyDate.Some? && x.fileModifyDate.value.Parsed? ==> r.Ok?
  {
    var date := OrChain(DateChain(x));
    match date
    case None => Err(NoDateField)
    case Some(Parsed(t)) => Ok(t)
    case Some(Unparsed(_)) => ModifyDateOnly(x)
  }

  /**
   The fallback chain as a specification: when the first truthy field is a
   parsed date, that date is chosen and no later field is; otherwise the
   file-modify date alone decides.
   */
  lemma ChooseDateSpec(x: Exif)
    ensures forall i :: FirstTruthyAt(DateChain(x), i) && DateChain(x)[i].value.Parsed? ==>
      ChooseDate(x) == Ok(DateChain(x)[i].value.instant)
    ensures forall i :: FirstTruthyAt(DateChain(x), i) && DateChain(x)[i].value.Unparsed? ==>
      ChooseDate(x) == ModifyDateOnly(x)
    ensures (forall j :: 0 <= j < 5 ==> !Truthy(DateChain(x)[j])) ==>
      ChooseDate(x) == ModifyDateOnly(x)
  {
    var c := DateChain(x);
    forall i | FirstTruthyAt(c, i)
      ensures OrChain(c) == c[i]
    {
      OrChainPicksFirstTruthy(c, i);
    }
    if forall j :: 0 <= j < 5 ==> !Truthy(c[j]) {
      OrChainNoneTruthy(c);
    }
  }

  /** Example: no creation date, a parsed original date-time: that date-time is used, not a later field. */
  lemma OriginalDateUsedWhenCreationMissing(x: Exif, t: int)
    requires x.creationDate.None? && x.dateTimeOriginal == Some(Parsed(t))
    ensures ChooseDate(x) == Ok(t)
  {
    ChooseDateSpec(x);
    assert FirstTruthyAt(DateChain(x), 1);
  }
}

=== FILE: paths.dfy ===
/**
 The subset of Node's POSIX `path` module that the migration script relies on:
 `join` (with its normalisation of `.`, `..` and repeated separators),
 `parse`, `format` and `basename`. Paths are strings; the separator is '/'.
 */
module Paths {
  import opened Base

  const Sep: char := '/'

  /** Index of the last occurrence of `c` in `s`, if any. */
  function LastIndexOf(s: string, c: char): (r: Option<nat>)
    ensures r.None? ==> c !in s
    ensures r.Some? ==> r.value < |s| && s[r.value] == c
    ensures r.Some? ==> forall j :: r.value < j < |s| ==> s[j] != c
  {
    if s == [] then None
    else if s[|s| - 1] == c then Some(|s| - 1)
    else LastIndexOf(s[..|s| - 1], c)
  }

  /** Appending text that does not contain `c` leaves the last `c` where it was. */
  lemma {:induction false} LastIndexOfAppend(s: string, t: string, c: char)
    requires c !in t
    ensures LastIndexOf(s + t, c) == LastIndexOf(s, c)
  {
    if t != [] {
      assert (s + t)[..|s + t| - 1] == s + t[..|t| - 1];
      LastIndexOfAppend(s, t[..|t| - 1], c);
    } else {
      assert s + t == s;
    }
  }

  /** The last `c` of `s + [c] + t`, when `t` holds none, is the one just appended to `s`. */
  lemma LastIndexOfAfter(s: string, c: char, t: string)
    requires c !in t
    ensures LastIndexOf(s + [c] + t, c) == Some(|s|)
  {
    LastIndexOfAppend(s + [c], t, c);
  }

  /** The segments of `p` between separators; `"a//b/"` gives `["a", "", "b", ""]`. */
  function Split(p: string): (segs: seq<string>)
    ensures |segs| >= 1
    decreases |p|
  {
    match LastIndexOf(p, Sep)
    case None => [p]
    case Some(k) => Split(p[..k]) + [p[k + 1..]]
  }

  /** A segment that normalisation keeps as it is: not empty, not `.` or `..`, no separator. */
  predicate PlainSegment(s: string)
  {
    s != "" && s != "." && s != ".." && Sep !in s
  }

  /**
   Node's `normalizeString` on segments: empty and `.` segments vanish, `..`
   removes the previous segment unless that is itself `..`, and otherwise is
   kept only when the path is relative (`allowAboveRoot`).
   */
  function NormalizeSegments(segs: seq<string>, allowAboveRoot: bool): (r: seq<string>)
    ensures forall i :: 0 <= i < |r| ==> r[i] != "" && r[i] != "."
    decreases |segs|
  {
    if segs == [] then []
    else
      var acc := NormalizeSegments(segs[..|segs| - 1], allowAboveRoot);
      var s := segs[|segs| - 1];
      if s == "" || s == "." then acc
      else if s == ".." then
        if |acc| > 0 && acc[|acc| - 1] != ".." then acc[..|acc| - 1]
        else if allowAboveRoot then acc + [".."]
        else acc
      else acc + [s]
  }

  /** Segments glued back together with the separator. */
  function JoinSegments(segs: seq<string>): string
    decreases |segs|
  {
    if segs == [] then ""
    else if |segs| == 1 then segs[0]
    else JoinSegments(segs[..|segs| - 1]) + [Sep] + segs[|segs| - 1]
  }

  /** Node's `path.posix.normalize`. */
  function Normalize(p: string): (r: string)
    ensures r != ""
  {
    if p == "" then "."
    else
      var absolute := p[0] == Sep;
      var trailing := p[|p| - 1] == Sep;
      var body := JoinSegments(NormalizeSegments(Split(p), !absolute));
      if body == "" then
        (if absolute then "/" else if trailing then "./" else ".")
      else
        (if absolute then "/" else "") + body + (if trailing then "/" else "")
  }

  /** Node's two-argument `path.posix.join`: the non-empty arguments joined by '/', then normalised. */
  function Join(a: string, b: string): (r: string)
    ensures r != ""
  {
    if a == "" && b == "" then "."
    else if a == "" then Normalize(b)
    else if b == "" then Normalize(a)
    else Normalize(a + [Sep] + b)
  }

  /** The result of Node's `path.posix.parse`. */
  datatype ParsedPath = ParsedPath(root: string, dir: string, base: string, ext: string, name: string)

  /**
   Splits a base name into name and extension the way `parse` does: the
   extension starts at the last dot, unless there is no dot, the last dot is the
   first character, or the base is `..` (that last rule applies only when
   `dotDotRule` holds, which `parse` decides from where the base starts).
   */
  function SplitExtension(base: string, dotDotRule: bool): (r: (string, string))
    ensures r.0 + r.1 == base
    ensures r.1 == "" || r.1[0] == '.'
    ensures '.' !in (if r.1 == "" then "" else r.1[1..])
    ensures base != "" ==> r.0 != ""
  {
    match LastIndexOf(base, '.')
    case None => (base, "")
    case Some(k) =>
      if k == 0 || (dotDotRule && base == "..") then (base, "")
      else
        assert base[k..][1..] == base[k + 1..];
        (base[..k], base[k..])
  }

  /** Index one past the last character of `p` that is not a trailing separator, never below `start`. */
  function TrimEnd(p: string, start: nat): (e: nat)
    requires start <= |p|
    ensures start <= e <= |p|
    ensures e > start ==> p[e - 1] != Sep
    ensures forall j :: e <= j < |p| ==> p[j] == Sep
    decreases |p|
  {
    if |p| > start && p[|p| - 1] == Sep then TrimEnd(p[..|p| - 1], start) else |p|
  }

  /** Node's `path.posix.parse`. */
  function Parse(p: string): (r: ParsedPath)
    ensures Sep !in r.base
    ensures r.name + r.ext == r.base
    ensures r.ext == "" || r.ext[0] == '.'
    ensures r.base != "" ==> r.name != ""
    ensures r.base != ".." ==> (r.name, r.ext) == SplitExtension(r.base, true)
  {
    if p == "" then ParsedPath("", "", "", "", "")
    else
      var absolute := p[0] == Sep;
      var start := if absolute then 1 else 0;
      var end := TrimEnd(p, start);
      var startPart: nat :=
        match LastIndexOf(p[..end], Sep)
        case Some(k) => if k >= start then k + 1 else 0
        case None => 0;
      var baseStart := if startPart == 0 && absolute then 1 else startPart;
      assert baseStart <= end;
      var base := p[baseStart..end];
      assert Sep !in base by {
        forall j | baseStart <= j < end ensures p[j] != Sep {
          assert p[..end][j] == p[j];
        }
      }
      var split := SplitExtension(base, baseStart == startPart);
      var dir := if startPart > 0 then p[..startPart - 1] else if absolute then "/" else "";
      ParsedPath(if absolute then "/" else "", dir, base, split.1, split.0)
  }

  /** Node's `path.posix.basename` without a suffix argument: the part after the last separator. */
  function Basename(p: string): (r: string)
    ensures Sep !in r
  {
    Parse(p).base
  }

  /** The extension as `format` writes it: a missing leading dot is supplied. */
  function FormatExtension(ext: string): string
  {
    if ext == "" || ext[0] == '.' then ext else "." + ext
  }

  /**
   Node's `path.posix.format` for an object carrying only `dir`, `name` and
   `ext` (no `root`, no `base`), which is how the script calls it.
   */
  function Format(dir: string, name: string, ext: string): string
  {
    if dir == "" then name + FormatExtension(ext)
    else dir + [Sep] + name + FormatExtension(ext)
  }

  /** A `c` with none after it is the last one. */
  lemma {:induction false} LastIndexOfIs(s: string, c: char, k: nat)
    requires k < |s| && s[k] == c
    requires forall j :: k < j < |s| ==> s[j] != c
    ensures LastIndexOf(s, c) == Some(k)
    decreases |s|
  {
    if k < |s| - 1 {
      LastIndexOfIs(s[..|s| - 1], c, k);
    }
  }

  /** A path without separators is its own base name. */
  lemma ParseNoSeparator(p: string)
    requires p != "" && forall j :: 0 <= j < |p| ==> p[j] != Sep
    ensures Parse(p).base == p
  {
    assert TrimEnd(p, 0) == |p|;
    assert p[..|p|] == p;
    assert LastIndexOf(p, Sep) == None;
  }

  /** A separator-free name right under the root is the base name. */
  lemma ParseRooted(p: string)
    requires |p| >= 2 && p[0] == Sep
    requires forall j :: 0 < j < |p| ==> p[j] != Sep
    ensures Parse(p).base == p[1..]
  {
    assert TrimEnd(p, 1) == |p|;
    assert p[..|p|] == p;
    LastIndexOfIs(p, Sep, 0);
  }

  /** After the last separator `k`, past the first character, come the base name; before it, the directory. */
  lemma ParseUnderDirectory(p: string, k: nat)
    requires 1 <= k && k + 1 < |p| && p[k] == Sep
    requires forall j :: k < j < |p| ==> p[j] != Sep
    ensures Parse(p).base == p[k + 1..]
    ensures Parse(p).dir == p[..k]
    ensures (Parse(p).name, Parse(p).ext) == SplitExtension(p[k + 1..], true)
  {
    var start := if p[0] == Sep then 1 else 0;
    assert TrimEnd(p, start) == |p|;
    assert p[..|p|] == p;
    LastIndexOfIs(p, Sep, k);
  }

  /**
   Parsing a path that ends in a separator-free base after `prefix` (empty or
   ending in '/') gives back that base; when the prefix is longer than "/" it
   also gives back the directory before the separator and the usual split of
   the base into name and extension.
   */
  lemma ParseAfterSeparator(prefix: string, base: string)
    requires base != "" && Sep !in base
    requires prefix == "" || prefix[|prefix| - 1] == Sep
    ensures Parse(prefix + base).base == base
    ensures |prefix| >= 2 ==> Parse(prefix + base).dir == prefix[..|prefix| - 1]
    ensures |prefix| >= 2 ==>
      (Parse(prefix + base).name, Parse(prefix + base).ext) == SplitExtension(base, true)
  {
    var p := prefix + base;
    assert forall j :: |prefix| <= j < |p| ==> p[j] == base[j - |prefix|];
    if prefix == "" {
      assert p == base;
      ParseNoSeparator(p);
    } else if |prefix| == 1 {
      assert p[1..] == base;
      ParseRooted(p);
    } else {
      var k := |prefix| - 1;
      assert p[k + 1..] == base;
      assert p[..k] == prefix[..k];
      ParseUnderDirectory(p, k);
    }
  }

  /** The last segment of a path that ends in a plain segment is that segment. */
  lemma SplitAppend(d: string, n: string)
    requires Sep !in n
    ensures Split(d + [Sep] + n) == Split(d) + [n]
  {
    var p := d + [Sep] + n;
    LastIndexOfAfter(d, Sep, n);
    assert p[..|d|] == d;
    assert p[|d| + 1..] == n;
  }

  /** A plain segment survives normalisation unchanged at the end. */
  lemma NormalizeSegmentsAppendPlain(segs: seq<string>, n: string, allowAboveRoot: bool)
    requires PlainSegment(n)
    ensures NormalizeSegments(segs + [n], allowAboveRoot) == NormalizeSegments(segs, allowAboveRoot) + [n]
  {
    assert (segs + [n])[..|segs|] == segs;
  }

  /** Gluing one more segment onto non-empty segments puts a separator before it. */
  lemma JoinSegmentsAppend(segs: seq<string>, n: string)
    requires segs != []
    ensures JoinSegments(segs + [n]) == JoinSegments(segs) + [Sep] + n
  {
    assert (segs + [n])[..|segs|] == segs;
  }

  /** Normalising a path with no trailing separator whose segments normalise to something non-empty. */
  lemma NormalizeUnfold(p: string, body: string)
    requires p != "" && p[|p| - 1] != Sep
    requires JoinSegments(NormalizeSegments(Split(p), p[0] != Sep)) == body && body != ""
    ensures Normalize(p) == (if p[0] == Sep then "/" else "") + body
  {
  }

  /** Concatenation regrouped, stated once so that callers need not rely on sequence extensionality. */
  lemma AppendAssociative(a: string, b: string, c: string)
    ensures a + (b + c) == (a + b) + c
  {
  }

  /** The normalised segments of a path whose last segment is plain render as that segment after a prefix. */
  lemma RenderLastSegment(init: seq<string>, n: string, relative: bool) returns (prefix: string)
    requires PlainSegment(n)
    ensures prefix == "" || prefix[|prefix| - 1] == Sep
    ensures JoinSegments(NormalizeSegments(init + [n], relative)) == prefix + n
  {
    var acc := NormalizeSegments(init, relative);
    NormalizeSegmentsAppendPlain(init, n, relative);
    if acc == [] {
      assert acc + [n] == [n];
      prefix := "";
    } else {
      JoinSegmentsAppend(acc, n);
      prefix := JoinSegments(acc) + [Sep];
    }
  }

  /**
   Normalisation keeps the last segment of a path when it is a plain segment,
   and renders it after a separator (or alone).
   */
  lemma NormalizeKeepsLastSegment(p: string, init: seq<string>, n: string) returns (prefix: string)
    requires PlainSegment(n) && p != "" && p[|p| - 1] != Sep
    requires Split(p) == init + [n]
    ensures prefix == "" || prefix[|prefix| - 1] == Sep
    ensures Normalize(p) == prefix + n
  {
    var rest := RenderLastSegment(init, n, p[0] != Sep);
    NormalizeUnfold(p, rest + n);
    var lead := if p[0] == Sep then "/" else "";
    AppendAssociative(lead, rest, n);
    prefix := lead + rest;
  }

  /** The base name of `join(dir, name)` is `name` when `name` is a plain directory entry name. */
  lemma {:induction false} BasenameOfJoin(dir: string, name: string)
    requires PlainSegment(name)
    ensures Basename(Join(dir, name)) == name
  {
    if dir == "" {
      assert LastIndexOf(name, Sep) == None;
      assert Split(name) == [name];
      assert NormalizeSegments([name], true) == [name] by {
        assert [name][..0] == [];
      }
      assert name[0] != Sep && name[|name| - 1] != Sep;
      assert Join(dir, name) == name;
      ParseAfterSeparator("", name);
      assert "" + name == name;
    } else {
      var p := dir + [Sep] + name;
      SplitAppend(dir, name);
      assert p[|p| - 1] == name[|name| - 1];
      var prefix := NormalizeKeepsLastSegment(p, Split(dir), name);
      ParseAfterSeparator(prefix, name);
    }
  }

  /**
   Round trip of `format` and `parse`: formatting a non-empty directory, a name
   and an extension that `parse` would split that way yields a path that parses
   back to the same directory, name and extension.
   */
  lemma {:induction false} FormatThenParse(dir: string, name: string, ext: string)
    requires dir != "" && name != "" && Sep !in name + ext
    requires ext == "" || ext[0] == '.'
    requires SplitExtension(name + ext, true) == (name, ext)
    ensures Parse(Format(dir, name, ext)).dir == dir
    ensures Parse(Format(dir, name, ext)).name == name
    ensures Parse(Format(dir, name, ext)).ext == ext
  {
    var prefix := dir + [Sep];
    assert Format(dir, name, ext) == prefix + (name + ext);
    ParseAfterSeparator(prefix, name + ext);
    assert prefix[..|prefix| - 1] == dir;
  }

  /** A new extension of the form "." + letters splits off a non-empty name exactly as written. */
  lemma SplitNewExtension(name: string, word: string)
    requires name != "" && '.' !in word && word != ""
    ensures SplitExtension(name + "." + word, true) == (name, "." + word)
    ensures Sep !in name && Sep !in word ==> Sep !in name + "." + word
  {
    LastIndexOfAfter(name, '.', word);
    var b := name + "." + word;
    assert b == name + ['.'] + word;
    assert b[..|name|] == name;
    assert b[|name|..] == "." + word;
    assert b != ".." by { assert b[|b| - 1] == word[|word| - 1]; }
  }
}

=== FILE: pipeline.dfy ===
/**
 The top level of the script (convert.js:12-13, 62-66, 159-203): walk the
 input tree, then for each file in order read its metadata, classify it and
 run one strategy, recording failures and warnings in the run report; finally
 report how many files were processed.
 */
module Pipeline {
  import opened Base
  import opened Paths
  import opened Metadata
  import opened Classifier
  import opened Strategies
  import opened TreeWalk
  import opened RunLoop

  /** The run-wide configuration: the two command-line roots and the skip lists. */
  datatype Config = Config(inputRoot: string, outputRoot: string, skip: SkipLists)

  /** Whether processing `src` hits one of the uncaught failures that end the run. */
  predicate ProcessingAborts(cfg: Config, w: World, src: string)
  {
    match w.readMetadata(src)
    case None => true
    case Some(x) => x.mimeType.None? || !w.mkdirOk(OutputDirectory(cfg.outputRoot, src))
  }

  /** The disposition and output path of `src`, when its metadata carries a MIME type. */
  function Plan(cfg: Config, w: World, src: string): Option<(Disposition, string)>
  {
    match w.readMetadata(src)
    case None => None
    case Some(x) =>
      if x.mimeType.None? then None
      else
        var d := Classify(cfg.skip, x.mimeType.value, x.compressorId);
        Some((d, OutputPath(cfg.outputRoot, src, d)))
  }

  /**
   One iteration of the dispatch loop (convert.js:163-187): read the metadata,
   classify, and run exactly one strategy. An absent metadata record or MIME
   type, or a failing `mkdir`, is not caught and ends the run.
   */
  function ProcessFile(cfg: Config, w: World, src: string, fs: FileSystem): (r: Result<FileResult, Abort>)
    ensures r.Err? <==> ProcessingAborts(cfg, w, src)
    ensures r.Err? ==> !r.error.ListingFailed?
    ensures r.Ok? ==> Plan(cfg, w, src).Some? && |r.value.actions| >= 2
    ensures r.Ok? ==>
      var (d, dst) := Plan(cfg, w, src).value;
      var res := r.value;
      && res.actions[0] == MakeDirectory(OutputDirectory(cfg.outputRoot, src))
      && res.actions[1] == (if d == CopyOriginal then CopyExclusive(src, dst) else CheckAbsent(dst))
      && (d != CopyOriginal && dst !in fs ==> |res.actions| >= 3 && res.actions[2] == RunEncoder(d, src, dst))
      && ((d == CopyOriginal || dst in fs) ==> EncoderFree(res.actions))
      && (dst in fs ==> res.fs == fs && res.verdict.Failed?)
      && (dst in fs && (d != CopyOriginal || src in fs) ==> res.verdict == Failed(DestinationExists))
      && (!res.verdict.Failed? ==> dst in res.fs)
      && (res.verdict.Warned? ==> d != CopyOriginal && res.verdict.output == dst)
    ensures r.Ok? ==> forall k :: k in fs && k != BackupPath(Plan(cfg, w, src).value.1) ==>
      k in r.value.fs && r.value.fs[k] == fs[k]
  {
    match w.readMetadata(src)
    case None => Err(MetadataUnavailable(src))
    case Some(x) =>
      match x.mimeType
      case None => Err(MimeTypeMissing(src))
      case Some(mime) =>
        var d := Classify(cfg.skip, mime, x.compressorId);
        if d == CopyOriginal then CopyOriginalFile(cfg.outputRoot, w, src, x, fs)
        else ConvertMedia(cfg.outputRoot, w, d, src, x, fs)
  }


  /** The loop body of the script: `ProcessFile` as one iteration of the dispatch loop. */
  function ProcessStep(cfg: Config, w: World): Step
  {
    (src, fs) => ProcessFile(cfg, w, src, fs)
  }

  /**
   The dispatch loop (convert.js:163-187) over the walked files, in list
   order. A strategy's failure never stops it; only an uncaught failure does
   (see RunAbortsOnlyOnAbortPaths), and then at a file that hits one.
   */
  function Run(cfg: Config, w: World, fs: FileSystem, files: seq<string>): (r: RunOutcome)
    ensures r.Aborted? ==> r.index < |files| && ProcessingAborts(cfg, w, files[r.index])
    ensures r.Aborted? ==> !r.reason.ListingFailed?
    ensures r.Completed? ==> |r.state.verdicts| == |files|
  {
    Fold(ProcessStep(cfg, w), fs, files)
  }

  /** Paths the run never touches once they exist: everything but the metadata writer's backups. */
  function NotBackup(): string -> bool
  {
    k => !EndsWith(k, "_original")
  }

  /** The output path of each file; a file without a plan has none, written as the empty path. */
  function OutputOf(cfg: Config, w: World): string -> string
  {
    src => match Plan(cfg, w, src) case Some((_, dst)) => dst case None => ""
  }

  /** Whether processing a file ends the run, as a predicate on the file alone. */
  function AbortsAt(cfg: Config, w: World): string -> bool
  {
    src => ProcessingAborts(cfg, w, src)
  }

  /**
   The facts about one iteration that the run relies on: it throws exactly
   on the abort paths, changes no existing path but a backup, leaves its
   output unless it failed, and refuses a file whose output already exists.
   */
  lemma ProcessStepContract(cfg: Config, w: World)
    ensures ThrowsExactly(ProcessStep(cfg, w), AbortsAt(cfg, w))
    ensures StepKeeps(ProcessStep(cfg, w), NotBackup())
    ensures StepLeavesOutput(ProcessStep(cfg, w), OutputOf(cfg, w))
    ensures StepRefusesExisting(ProcessStep(cfg, w), OutputOf(cfg, w))
  {
    var step := ProcessStep(cfg, w);
    forall src, fs | true
      ensures step(src, fs).Err? <==> AbortsAt(cfg, w)(src)
      ensures step(src, fs).Ok? && !step(src, fs).value.verdict.Failed? ==> OutputOf(cfg, w)(src) in step(src, fs).value.fs
      ensures step(src, fs).Ok? && OutputOf(cfg, w)(src) in fs ==>
        step(src, fs).value.fs == fs && step(src, fs).value.verdict.Failed? &&
        (src in fs ==> step(src, fs).value.verdict == Failed(DestinationExists))
    {
      assert step(src, fs) == ProcessFile(cfg, w, src, fs);
    }
    forall src, fs, k | step(src, fs).Ok? && k in fs && NotBackup()(k)
      ensures k in step(src, fs).value.fs && step(src, fs).value.fs[k] == fs[k]
    {
      assert step(src, fs) == ProcessFile(cfg, w, src, fs);
      assert k != BackupPath(Plan(cfg, w, src).value.1);
    }
  }

  /**
   Files that existed before the run and are not metadata-writer backups are
   never changed: sources are only read, and an existing output is never
   overwritten.
   */
  lemma RunLeavesOtherFilesAlone(cfg: Config, w: World, fs: FileSystem, files: seq<string>, k: string)
    requires Run(cfg, w, fs, files).Completed?
    requires k in fs && !EndsWith(k, "_original")
    ensures k in Run(cfg, w, fs, files).state.fs && Run(cfg, w, fs, files).state.fs[k] == fs[k]
  {
    ProcessStepContract(cfg, w);
    FoldLeavesOtherFilesAlone(ProcessStep(cfg, w), NotBackup(), fs, files, k);
  }

  /**
   Isolation: the run stops exactly at the first file with an uncaught
   failure (absent metadata or MIME type, or a failing `mkdir`), and completes
   when there is none. Failed conversions, copies, date writes and size checks
   never stop it.
   */
  lemma RunAbortsOnlyOnAbortPaths(cfg: Config, w: World, fs: FileSystem, files: seq<string>)
    ensures Run(cfg, w, fs, files).Completed? <==>
      forall j :: 0 <= j < |files| ==> !ProcessingAborts(cfg, w, files[j])
    ensures Run(cfg, w, fs, files).Aborted? ==>
      forall j :: 0 <= j < Run(cfg, w, fs, files).index ==> !ProcessingAborts(cfg, w, files[j])
  {
    ProcessStepContract(cfg, w);
    FoldStopsAtFirstAbort(ProcessStep(cfg, w), AbortsAt(cfg, w), fs, files);
    assert forall j :: 0 <= j < |files| ==> AbortsAt(cfg, w)(files[j]) == ProcessingAborts(cfg, w, files[j]);
  }

  /**
   Outputs persist: once a file's strategy succeeded (with or without a size
   warning), its output is still there at the end of the run, as long as the
   output path is not itself a backup name.
   */
  lemma RunKeepsOutputs(cfg: Config, w: World, fs: FileSystem, files: seq<string>, j: nat)
    requires Run(cfg, w, fs, files).Completed?
    requires j < |files| && !Run(cfg, w, fs, files).state.verdicts[j].Failed?
    requires Plan(cfg, w, files[j]).Some? && !EndsWith(Plan(cfg, w, files[j]).value.1, "_original")
    ensures Plan(cfg, w, files[j]).value.1 in Run(cfg, w, fs, files).state.fs
  {
    ProcessStepContract(cfg, w);
    assert OutputOf(cfg, w)(files[j]) == Plan(cfg, w, files[j]).value.1;
    FoldKeepsOutputs(ProcessStep(cfg, w), NotBackup(), OutputOf(cfg, w), fs, files, j);
  }

  /**
   A run over a tree whose every planned output already exists changes
   nothing: each file is refused (an existing output is never overwritten),
   each appears in the failed list, and nothing is warned. Every file whose
   source is there fails because its output already exists.
   */
  lemma RerunRefusesEveryFile(cfg: Config, w: World, fs: FileSystem, files: seq<string>)
    requires forall j :: 0 <= j < |files| ==>
      !ProcessingAborts(cfg, w, files[j]) && Plan(cfg, w, files[j]).value.1 in fs
    ensures Run(cfg, w, fs, files).Completed?
    ensures Run(cfg, w, fs, files).state.fs == fs
    ensures |Run(cfg, w, fs, files).state.failed| == |files|
    ensures Run(cfg, w, fs, files).state.warned == []
    ensures forall j :: 0 <= j < |files| ==> Run(cfg, w, fs, files).state.verdicts[j].Failed?
    ensures forall j :: 0 <= j < |files| && files[j] in fs ==>
      Run(cfg, w, fs, files).state.verdicts[j] == Failed(DestinationExists)
  {
    ProcessStepContract(cfg, w);
    forall j | 0 <= j < |files|
      ensures !AbortsAt(cfg, w)(files[j]) && OutputOf(cfg, w)(files[j]) in fs
    {
    }
    FoldRefusesExisting(ProcessStep(cfg, w), AbortsAt(cfg, w), OutputOf(cfg, w), fs, files);
  }

  /**
   Idempotence: after a run in which every file succeeded, a second run over
   the same file list with the same metadata changes nothing and reports every
   file as failed; a file whose source is there and not a backup name fails
   because its output already exists. The script walks the tree again, so this
   is its behaviour when the output tree lies outside the input tree.
   */
  lemma SecondRunChangesNothing(cfg: Config, w: World, fs: FileSystem, files: seq<string>)
    requires Run(cfg, w, fs, files).Completed?
    requires forall j :: 0 <= j < |files| ==> !Run(cfg, w, fs, files).state.verdicts[j].Failed?
    requires forall j :: 0 <= j < |files| ==> Plan(cfg, w, files[j]).Some? ==> !EndsWith(Plan(cfg, w, files[j]).value.1, "_original")
    ensures Run(cfg, w, Run(cfg, w, fs, files).state.fs, files).Completed?
    ensures Run(cfg, w, Run(cfg, w, fs, files).state.fs, files).state.fs == Run(cfg, w, fs, files).state.fs
    ensures forall j :: 0 <= j < |files| ==> Run(cfg, w, Run(cfg, w, fs, files).state.fs, files).state.verdicts[j].Failed?
    ensures forall j :: 0 <= j < |files| && files[j] in fs && !EndsWith(files[j], "_original") ==>
      Run(cfg, w, Run(cfg, w, fs, files).state.fs, files).state.verdicts[j] == Failed(DestinationExists)
  {
    ProcessStepContract(cfg, w);
    forall j | 0 <= j < |files| ensures NotBackup()(OutputOf(cfg, w)(files[j])) {
      if Plan(cfg, w, files[j]).None? {
        assert !EndsWith("", "_original");
      }
    }
    FoldSecondRunChangesNothing(ProcessStep(cfg, w), AbortsAt(cfg, w), NotBackup(), OutputOf(cfg, w), fs, files);
    forall j | 0 <= j < |files| && files[j] in fs && !EndsWith(files[j], "_original")
      ensures files[j] in Run(cfg, w, fs, files).state.fs
    {
      RunLeavesOtherFilesAlone(cfg, w, fs, files, files[j]);
    }
  }

  /**
   Idempotence file by file, after any run, failed files included: a file
   that did not fail is refused on a next run over the same file list and
   metadata because its output already
   exists, and that output comes through the next run unchanged; sources and
   outputs named like metadata-writer backups excepted.
   */
  lemma RerunRefusesConvertedFile(cfg: Config, w: World, fs: FileSystem, files: seq<string>, j: nat)
    requires Run(cfg, w, fs, files).Completed?
    requires j < |files| && !Run(cfg, w, fs, files).state.verdicts[j].Failed?
    requires files[j] in fs && !EndsWith(files[j], "_original")
    requires Plan(cfg, w, files[j]).Some? && !EndsWith(Plan(cfg, w, files[j]).value.1, "_original")
    ensures Run(cfg, w, Run(cfg, w, fs, files).state.fs, files).Completed?
    ensures Run(cfg, w, Run(cfg, w, fs, files).state.fs, files).state.verdicts[j] == Failed(DestinationExists)
    ensures Plan(cfg, w, files[j]).value.1 in Run(cfg, w, fs, files).state.fs
    ensures Plan(cfg, w, files[j]).value.1 in Run(cfg, w, Run(cfg, w, fs, files).state.fs, files).state.fs
    ensures Run(cfg, w, Run(cfg, w, fs, files).state.fs, files).state.fs[Plan(cfg, w, files[j]).value.1] ==
            Run(cfg, w, fs, files).state.fs[Plan(cfg, w, files[j]).value.1]
  {
    ProcessStepContract(cfg, w);
    assert OutputOf(cfg, w)(files[j]) == Plan(cfg, w, files[j]).value.1;
    FoldRerunRefusesKeptOutput(ProcessStep(cfg, w), AbortsAt(cfg, w), NotBackup(), OutputOf(cfg, w), fs, files, j);
  }

  /**
   Date-stamping failures are swallowed (convert.js:144-153): however the
   metadata write, the time update or the backup removal fare, and whatever
   size the write leaves, a file fails exactly when it failed before, with the
   same error. A copy's verdict does not change at all; a conversion's
   warning and success may trade places, because the size comparison sees the
   rewritten output.
   */
  lemma StampFailureSwallowed(cfg: Config, w: World, src: string, fs: FileSystem, s: string -> StampOutcome, z: string -> nat)
    requires !ProcessingAborts(cfg, w, src)
    requires src != BackupPath(Plan(cfg, w, src).value.1)
    ensures ProcessFile(cfg, w.(stamp := s, rewrittenSize := z), src, fs).value.verdict.Failed? <==>
            ProcessFile(cfg, w, src, fs).value.verdict.Failed?
    ensures ProcessFile(cfg, w, src, fs).value.verdict.Failed? ==>
            ProcessFile(cfg, w.(stamp := s, rewrittenSize := z), src, fs).value.verdict ==
            ProcessFile(cfg, w, src, fs).value.verdict
    ensures Plan(cfg, w, src).value.0 == CopyOriginal ==>
            ProcessFile(cfg, w.(stamp := s, rewrittenSize := z), src, fs).value.verdict ==
            ProcessFile(cfg, w, src, fs).value.verdict
  {
    var w' := w.(stamp := s, rewrittenSize := z);
    var x := w.readMetadata(src).value;
    var (d, dst) := Plan(cfg, w, src).value;
    if d != CopyOriginal {
      assert ProcessFile(cfg, w, src, fs) == ConvertMedia(cfg.outputRoot, w, d, src, x, fs);
      assert ProcessFile(cfg, w', src, fs) == ConvertMedia(cfg.outputRoot, w', d, src, x, fs);
      if dst !in fs && src in fs && w.encode(src).Some? {
        StampOutcomeIrrelevant(w, s, z, src, dst, x, fs[dst := FileNode(w.encode(src).value, None, None)]);
      }
    }
  }

  /** The closing line of the run: how many files were found and how many did not fail. */
  datatype Summary = Summary(total: nat, processed: nat, failed: seq<FailedFile>, warned: seq<WarnedFile>)

  /** The whole script: the tree walk, then the loop, then the summary. */
  datatype Migration = Finished(files: seq<string>, state: RunState, summary: Summary) | Stopped(reason: Abort)

  /**
   The script end to end (convert.js:159-203). A listing failure or an
   uncaught failure in the loop stops it before the summary; otherwise the
   summary counts as processed exactly the files whose verdict is not a
   failure, warned ones included.
   */
  function Migrate(cfg: Config, w: World, listing: Option<seq<Entry>>, fs: FileSystem): (m: Migration)
    ensures GetFiles(cfg.inputRoot, listing).None? <==> m == Stopped(ListingFailed)
    ensures m.Finished? ==>
      && GetFiles(cfg.inputRoot, listing) == Some(m.files)
      && ReportAgrees(m.files, m.state)
      && m.summary.total == |m.files|
      && m.summary.processed == |m.files| - CountFailed(m.state.verdicts)
      && m.summary.processed >= |m.summary.warned|
      && m.summary.failed == m.state.failed && m.summary.warned == m.state.warned
      && (forall k, l :: 0 <= k < |m.summary.failed| && 0 <= l < |m.summary.warned| ==>
            m.summary.failed[k].index != m.summary.warned[l].index)
    ensures m.Stopped? && m.reason != ListingFailed ==>
      && GetFiles(cfg.inputRoot, listing).Some?
      && exists j :: 0 <= j < |GetFiles(cfg.inputRoot, listing).value| &&
           ProcessingAborts(cfg, w, GetFiles(cfg.inputRoot, listing).value[j])
  {
    match GetFiles(cfg.inputRoot, listing)
    case None => Stopped(ListingFailed)
    case Some(files) =>
      match Run(cfg, w, fs, files)
      case Aborted(_, why) => Stopped(why)
      case Completed(st) =>
        FoldReportAgrees(ProcessStep(cfg, w), fs, files);
        FailedPlusWarnedAtMostFiles(st.verdicts);
        ReportListsDisjoint(files, st);
        Finished(files, st, Summary(|files|, |files| - |st.failed|, st.failed, st.warned))
  }

  /**
   Every file the walk lists gets an output that keeps its name, lives in its
   output directory and carries the strategy's extension.
   */
  lemma WalkedFilesKeepTheirNames(cfg: Config, listing: Option<seq<Entry>>, files: seq<string>, j: nat, d: Disposition)
    requires listing.Some? && WellFormed(listing.value)
    requires GetFiles(cfg.inputRoot, listing) == Some(files) && j < |files|
    ensures Parse(OutputPath(cfg.outputRoot, files[j], d)).dir == OutputDirectory(cfg.outputRoot, files[j])
    ensures Parse(OutputPath(cfg.outputRoot, files[j], d)).name == Parse(files[j]).name
    ensures Parse(OutputPath(cfg.outputRoot, files[j], d)).ext == TargetExtension(d, Parse(files[j]).ext)
  {
    WalkListsOnlyVisible(cfg.inputRoot, listing.value, files);
    assert files[j] in files;
    OutputPathShape(cfg.outputRoot, files[j], d);
  }

  /**
   The output directory is the output root joined with the source's whole
   directory, the input root included: `in/a/b.jpg` goes under `out/in/a`.
   */
  lemma OutputKeepsSourceDirectory(outputRoot: string, dir: string, base: string)
    requires dir != "" && base != "" && Sep !in base
    ensures OutputDirectory(outputRoot, dir + [Sep] + base) == Join(outputRoot, dir)
  {
    ParseAfterSeparator(dir + [Sep], base);
    assert (dir + [Sep])[..|dir|] == dir;
    assert dir + [Sep] + base == (dir + [Sep]) + base;
  }
}

=== FILE: strategies.dfy ===
/**
 The three conversion strategies of the script (convert.js:40-136) and the
 helpers they share: the existence check, the size comparison, the output-path
 builder and the date stamper.

 The filesystem is a map from path to file; the external encoders, the copy,
 `mkdir` and the metadata writer are an oracle (`World`) that says how each
 call turns out. Every effect a strategy has is also recorded as an `Action`,
 so that the order of the steps can be stated.
 */
module Strategies {
  import opened Base
  import opened Paths
  import opened Metadata
  import opened Classifier

  /** A regular file: its size, its filesystem modification time and the capture date embedded in it. */
  datatype FileNode = FileNode(size: nat, mtime: Option<int>, embeddedDate: Option<int>)

  type FileSystem = map<string, FileNode>

  /** How the three fallible steps of the date stamper turn out for one destination. */
  datatype StampOutcome = StampOk | WriteFails | UtimesFails | RemoveFails

  /**
   The external collaborators, as functions of the path they are given:
   the metadata reader, `mkdir -p`, the encoder (the size it produces, or a
   failure), the byte copy, the metadata writer with `utimes` and `rm` (how
   the three calls fare), and the size of a file once the metadata writer has
   rewritten it.
   */
  datatype World = World(
    readMetadata: string -> Option<Exif>,
    mkdirOk: string -> bool,
    encode: string -> Option<nat>,
    copyOk: string -> bool,
    stamp: string -> StampOutcome,
    rewrittenSize: string -> nat)

  /** One externally visible step of a strategy. */
  datatype Action =
    | MakeDirectory(dir: string)
    | CheckAbsent(path: string)
    | RunEncoder(kind: Disposition, src: string, dst: string)
    | CopyExclusive(src: string, dst: string)
    | WriteDates(dst: string, instant: int)
    | SetTimes(dst: string, instant: int)
    | RemoveBackup(backup: string)
    | CompareSizes(src: string, dst: string)

  /** Whether a sequence of steps never runs an encoder. */
  predicate EncoderFree(actions: seq<Action>)
  {
    forall a :: a in actions ==> !a.RunEncoder?
  }

  /** The error recorded on a file that failed. */
  datatype Error =
    | DestinationExists
    | EncoderFailed
    | CopyFailed
    | DateUnavailable(cause: DateError)
    | StatFailed

  /** How the processing of one file ended. */
  datatype Verdict = Done | Warned(output: string) | Failed(error: Error)

  datatype FileResult = FileResult(fs: FileSystem, verdict: Verdict, actions: seq<Action>)

  /** The failures that are not caught per file and end the whole run. */
  datatype Abort =
    | MetadataUnavailable(path: string)
    | MimeTypeMissing(path: string)
    | OutputDirectoryFailed(dir: string)
    | ListingFailed

  // ---------------------------------------------------------------- extensions

  const ImageExtension: string := ".heic"

  function LowerChar(c: char): char
  {
    if 'A' <= c <= 'Z' then (c as int + 32) as char else c
  }

  /** `toLowerCase` on the ASCII letters. */
  function ToLower(s: string): (r: string)
    ensures |r| == |s|
    ensures forall i :: 0 <= i < |s| ==> r[i] == LowerChar(s[i])
  {
    if s == [] then [] else ToLower(s[..|s| - 1]) + [LowerChar(s[|s| - 1])]
  }

  /**
   The video container (convert.js:86-87): the lower-cased source extension
   when it is `.mov` or `.mp4`, `.mov` for everything else.
   */
  function VideoExtension(ext: string): (r: string)
    ensures r == ".mov" || r == ".mp4"
    ensures ToLower(ext) == ".mp4" ==> r == ".mp4"
    ensures ToLower(ext) != ".mp4" ==> r == ".mov"
  {
    var lower := ToLower(ext);
    if lower == ".mov" || lower == ".mp4" then lower else ".mov"
  }

  /** Lower-casing leaves a string without upper-case letters unchanged. */
  lemma ToLowerKeepsLower(s: string)
    requires forall i :: 0 <= i < |s| ==> !('A' <= s[i] <= 'Z')
    ensures ToLower(s) == s
  {
  }

  /** The video rule ignores the case of the source extension. */
  lemma VideoExtensionIgnoresCase(ext: string)
    ensures VideoExtension(ToLower(ext)) == VideoExtension(ext)
  {
    ToLowerKeepsLower(ToLower(ext));
  }

  /** An extension the video rule produced is kept by a second conversion. */
  lemma VideoExtensionIdempotent(ext: string)
    ensures VideoExtension(VideoExtension(ext)) == VideoExtension(ext)
  {
    var r := VideoExtension(ext);
    ToLowerKeepsLower(r);
    assert ToLower(r) == r;
  }

  /** The documented examples of the video rule. */
  lemma VideoExtensionExamples()
    ensures VideoExtension(".MP4") == ".mp4"
    ensures VideoExtension(".MOV") == ".mov"
    ensures VideoExtension(".avi") == ".mov"
    ensures VideoExtension("") == ".mov"
  {
    assert ToLower(".MP4") == ".mp4";
    assert ToLower(".avi") != ".mp4" by { assert ToLower(".avi")[1] == 'a'; }
  }

  /** The extension each strategy gives its output (convert.js:86-87, 110, 127). */
  function TargetExtension(d: Disposition, sourceExt: string): (r: string)
    ensures d == ConvertImage ==> r == ImageExtension
    ensures d == ConvertVideo ==> r == ".mov" || r == ".mp4"
    ensures d == ConvertVideo && ToLower(sourceExt) == ".mp4" ==> r == ".mp4"
    ensures d == CopyOriginal ==> r == sourceExt
  {
    match d
    case ConvertImage => ImageExtension
    case ConvertVideo => VideoExtension(sourceExt)
    case CopyOriginal => sourceExt
  }

  // --------------------------------------------------------------- output path

  /** The output directory (convert.js:69): the source's whole directory, input root included, under the output root. */
  function OutputDirectory(outputRoot: string, src: string): (r: string)
    ensures r != ""
  {
    Join(outputRoot, Parse(src).dir)
  }

  /** `buildOutputPath` (convert.js:68-81) for the extension the disposition `d` chooses. */
  function OutputPath(outputRoot: string, src: string, d: Disposition): string
  {
    var p := Parse(src);
    Format(OutputDirectory(outputRoot, src), p.name, TargetExtension(d, p.ext))
  }

  /** Every strategy's extension splits off the parsed name exactly as written, and brings no separator. */
  lemma {:induction false} TargetExtensionSplits(p: ParsedPath, d: Disposition)
    requires p.base != "" && Sep !in p.base && p.name + p.ext == p.base && p.name != ""
    requires (p.name, p.ext) == SplitExtension(p.base, true)
    ensures Sep !in p.name + TargetExtension(d, p.ext)
    ensures SplitExtension(p.name + TargetExtension(d, p.ext), true) == (p.name, TargetExtension(d, p.ext))
  {
    var ext := TargetExtension(d, p.ext);
    assert Sep !in p.name by {
      forall i | 0 <= i < |p.name| ensures p.name[i] != Sep {
        assert p.name[i] == p.base[i];
      }
    }
    if d == CopyOriginal {
      assert p.name + ext == p.base;
    } else {
      var word := ConvertedExtensionWord(d, p.ext);
      SplitNewExtension(p.name, word);
    }
  }

  /** A converted file's extension is a dot followed by a plain word. */
  lemma ConvertedExtensionWord(d: Disposition, sourceExt: string) returns (word: string)
    requires d != CopyOriginal
    ensures TargetExtension(d, sourceExt) == "." + word
    ensures word != "" && '.' !in word && Sep !in word
  {
    var ext := TargetExtension(d, sourceExt);
    if ext == ".heic" {
      word := "heic";
    } else if ext == ".mov" {
      word := "mov";
    } else {
      word := "mp4";
    }
  }

  /**
   The output path keeps the source's name, sits in the output directory and
   carries exactly the extension the strategy chose: only the directory and
   the extension change.
   */
  lemma {:induction false} OutputPathShape(outputRoot: string, src: string, d: Disposition)
    requires Parse(src).base != "" && Parse(src).base != ".."
    ensures Parse(OutputPath(outputRoot, src, d)).dir == OutputDirectory(outputRoot, src)
    ensures Parse(OutputPath(outputRoot, src, d)).name == Parse(src).name
    ensures Parse(OutputPath(outputRoot, src, d)).ext == TargetExtension(d, Parse(src).ext)
  {
    var p := Parse(src);
    TargetExtensionSplits(p, d);
    FormatThenParse(OutputDirectory(outputRoot, src), p.name, TargetExtension(d, p.ext));
  }

  // ------------------------------------------------------------------ helpers

  /** The backup copy the metadata writer leaves beside a file it rewrote. */
  function BackupPath(dst: string): (r: string)
    ensures r != dst && EndsWith(r, "_original")
  {
    dst + "_original"
  }

  /** `throwIfFileExists` (convert.js:40-50): fails exactly when the path exists. */
  function ThrowIfFileExists(fs: FileSystem, path: string): (r: Option<Error>)
    ensures r.Some? <==> path in fs
    ensures r.Some? ==> r.value == DestinationExists
  {
    if path in fs then Some(DestinationExists) else None
  }

  /**
   `checkFileSizes` (convert.js:52-60): both files are stat'ed, and a warning
   naming the output is raised when the output is not smaller than the source.
   */
  function CheckFileSizes(fs: FileSystem, src: string, dst: string): (v: Verdict)
    ensures v.Warned? <==> src in fs && dst in fs && fs[dst].size >= fs[src].size
    ensures v.Warned? ==> v.output == dst
    ensures v == Done <==> src in fs && dst in fs && fs[dst].size < fs[src].size
    ensures v.Failed? ==> v.error == StatFailed
  {
    if src !in fs || dst !in fs then Failed(StatFailed)
    else if fs[dst].size >= fs[src].size then Warned(dst)
    else Done
  }

  /**
   The size of an output of `size` bytes once the date stamper ran: the
   metadata writer rewrites the file when a date was chosen and the write
   went through; otherwise the file stays as it was produced.
   */
  function OutputSize(w: World, x: Exif, dst: string, size: nat): nat
  {
    if ChooseDate(x).Ok? && w.stamp(dst) != WriteFails then w.rewrittenSize(dst) else size
  }

  /**
   The capture date embedded in an output that carried `date` once the date
   stamper ran: the chosen instant when the metadata writer went through,
   otherwise what the file carried before.
   */
  function OutputDate(w: World, x: Exif, dst: string, date: Option<int>): Option<int>
  {
    if ChooseDate(x).Ok? && w.stamp(dst) != WriteFails then Some(ChooseDate(x).value) else date
  }

  /** The file system after the date stamper ran, and the steps it took. */
  datatype Stamping = Stamping(fs: FileSystem, actions: seq<Action>)

  /**
   `setDateTime` (convert.js:138-154). The choice of the date happens before
   its `try`, so failing to choose one is an error the caller sees. The
   metadata write, `utimes` and the removal of the writer's backup are inside
   the `try`: their failures are swallowed and only cut the sequence short.
   */
  function SetDateTime(w: World, fs: FileSystem, dst: string, x: Exif): (r: Result<Stamping, DateError>)
    ensures r.Err? <==> ChooseDate(x).Err?
    ensures r.Ok? ==> |r.value.actions| >= 1 && r.value.actions[0] == WriteDates(dst, ChooseDate(x).value)
    ensures r.Ok? ==> forall k :: k in fs && k != dst && k != BackupPath(dst) ==>
      k in r.value.fs && r.value.fs[k] == fs[k]
    ensures r.Ok? ==> forall k :: k in r.value.fs ==> k in fs || k == BackupPath(dst)
    ensures r.Ok? && dst in fs ==> dst in r.value.fs && r.value.fs[dst].size == OutputSize(w, x, dst, fs[dst].size)
    ensures r.Ok? && dst in fs ==> r.value.fs[dst].embeddedDate == OutputDate(w, x, dst, fs[dst].embeddedDate)
    ensures r.Ok? ==> forall a :: a in r.value.actions ==> !a.RunEncoder? && !a.CopyExclusive?
    ensures r.Ok? && dst in fs && w.stamp(dst) in {StampOk, RemoveFails} ==>
      r.value.fs[dst].mtime == Some(ChooseDate(x).value) &&
      r.value.fs[dst].embeddedDate == Some(ChooseDate(x).value)
    ensures r.Ok? && dst in fs && w.stamp(dst) == StampOk ==> BackupPath(dst) !in r.value.fs
  {
    match ChooseDate(x)
    case Err(e) => Err(e)
    case Ok(t) =>
      var backup := BackupPath(dst);
      if dst !in fs || w.stamp(dst) == WriteFails then
        Ok(Stamping(fs, [WriteDates(dst, t)]))
      else
        var node := fs[dst];
        var rewritten := FileNode(w.rewrittenSize(dst), node.mtime, Some(t));
        var written := fs[backup := node][dst := rewritten];
        var timed := written[dst := rewritten.(mtime := Some(t))];
        match w.stamp(dst)
        case UtimesFails => Ok(Stamping(written, [WriteDates(dst, t), SetTimes(dst, t)]))
        case RemoveFails => Ok(Stamping(timed, [WriteDates(dst, t), SetTimes(dst, t), RemoveBackup(backup)]))
        case StampOk => Ok(Stamping(timed - {backup}, [WriteDates(dst, t), SetTimes(dst, t), RemoveBackup(backup)]))
  }

  // --------------------------------------------------------------- strategies

  /**
   Whether a strategy created its output: the destination was free, the source
   was there to be read, and the encoder or the copy succeeded.
   */
  predicate Produced(w: World, fs: FileSystem, d: Disposition, src: string, dst: string)
  {
    dst !in fs && src in fs &&
    (if d == CopyOriginal then w.copyOk(src) else w.encode(src).Some?)
  }

  /**
   The part of `convertImage` and `convertVideo` after the encoder produced
   `dst` (convert.js:99-100, 118-119): stamp the date, then compare the sizes.
   */
  function StampAndCompare(w: World, src: string, dst: string, x: Exif, produced: FileSystem): (res: FileResult)
    requires dst in produced
    ensures dst in res.fs && res.fs[dst].size == OutputSize(w, x, dst, produced[dst].size)
    ensures res.verdict.Warned? <==>
      ChooseDate(x).Ok? && src in res.fs && res.fs[dst].size >= res.fs[src].size
    ensures res.verdict.Warned? ==> res.verdict.output == dst
    ensures res.verdict == Done <==>
      ChooseDate(x).Ok? && src in res.fs && res.fs[dst].size < res.fs[src].size
    ensures res.verdict.Failed? <==> ChooseDate(x).Err? || src !in res.fs
    ensures !res.verdict.Failed? ==>
      |res.actions| >= 2 && res.actions[0] == WriteDates(dst, ChooseDate(x).value) &&
      res.actions[|res.actions| - 1] == CompareSizes(src, dst)
    ensures forall k :: k in produced && k != dst && k != BackupPath(dst) ==> k in res.fs && res.fs[k] == produced[k]
    ensures forall k :: k in res.fs ==> k in produced || k == BackupPath(dst)
  {
    match SetDateTime(w, produced, dst, x)
    case Err(e) => FileResult(produced, Failed(DateUnavailable(e)), [])
    case Ok(stamped) =>
      FileResult(stamped.fs, CheckFileSizes(stamped.fs, src, dst), stamped.actions + [CompareSizes(src, dst)])
  }

  /**
   The encoder step of `convertImage` and `convertVideo` (convert.js:96-100,
   115-119) once `dst` is known to be free: run the encoder, then stamp and
   compare. A failing encoder, or one given a source that is gone, is the
   file's failure and leaves nothing behind.
   */
  function EncodeAndStamp(w: World, kind: Disposition, src: string, dst: string, x: Exif, fs: FileSystem)
    : (res: FileResult)
    requires kind != CopyOriginal && dst !in fs
    ensures |res.actions| >= 1 && res.actions[0] == RunEncoder(kind, src, dst)
    ensures dst in res.fs <==> Produced(w, fs, kind, src, dst)
    ensures Produced(w, fs, kind, src, dst) ==> res.fs[dst].size == OutputSize(w, x, dst, w.encode(src).value)
    ensures !Produced(w, fs, kind, src, dst) ==> res.verdict == Failed(EncoderFailed)
    ensures res.verdict.Warned? <==>
      Produced(w, fs, kind, src, dst) && ChooseDate(x).Ok? && src in res.fs && res.fs[dst].size >= res.fs[src].size
    ensures res.verdict.Warned? ==> res.verdict.output == dst
    ensures res.verdict == Done <==>
      Produced(w, fs, kind, src, dst) && ChooseDate(x).Ok? && src in res.fs && res.fs[dst].size < res.fs[src].size
    ensures !res.verdict.Failed? ==>
      |res.actions| >= 3 && res.actions[1] == WriteDates(dst, ChooseDate(x).value) &&
      res.actions[|res.actions| - 1] == CompareSizes(src, dst)
    ensures forall k :: k in fs && k != BackupPath(dst) ==> k in res.fs && res.fs[k] == fs[k]
    ensures forall k :: k in res.fs ==> k in fs || k == dst || k == BackupPath(dst)
  {
    if src !in fs || w.encode(src).None? then FileResult(fs, Failed(EncoderFailed), [RunEncoder(kind, src, dst)])
    else
      var size := w.encode(src).value;
      var tail := StampAndCompare(w, src, dst, x, fs[dst := FileNode(size, None, None)]);
      tail.(actions := [RunEncoder(kind, src, dst)] + tail.actions)
  }

  /**
   Whether a file fails after its output was produced does not depend on the
   metadata writer: its own failures are swallowed and only its backup comes
   or goes, so only the failure to choose a date or a missing source fails the
   file, with the same error. The size it leaves can differ, so a warning and
   a success may trade places.
   */
  lemma StampOutcomeIrrelevant(w: World, s: string -> StampOutcome, z: string -> nat, src: string, dst: string, x: Exif, produced: FileSystem)
    requires dst in produced && src != BackupPath(dst)
    ensures StampAndCompare(w.(stamp := s, rewrittenSize := z), src, dst, x, produced).verdict.Failed? <==>
            StampAndCompare(w, src, dst, x, produced).verdict.Failed?
    ensures StampAndCompare(w, src, dst, x, produced).verdict.Failed? ==>
            StampAndCompare(w.(stamp := s, rewrittenSize := z), src, dst, x, produced).verdict ==
            StampAndCompare(w, src, dst, x, produced).verdict
  {
    var w' := w.(stamp := s, rewrittenSize := z);
    match SetDateTime(w, produced, dst, x) {
      case Err(_) =>
      case Ok(a) =>
        var b := SetDateTime(w', produced, dst, x).value;
        assert src in a.fs <==> src in produced;
        assert src in b.fs <==> src in produced;
    }
  }

  /**
   `convertImage` and `convertVideo` (convert.js:83-123) once the output
   directory `dir` and path `dst` are built: create the directory, then inside
   one `try`: refuse an existing destination, run the encoder, stamp the date,
   compare the sizes. Any error in that sequence is recorded as the file's
   failure; only a failing `mkdir` escapes.
   */
  function ConvertTo(w: World, kind: Disposition, src: string, dir: string, dst: string, x: Exif, fs: FileSystem)
    : (r: Result<FileResult, Abort>)
    requires kind != CopyOriginal
    ensures r.Err? <==> !w.mkdirOk(dir)
    ensures r.Ok? ==>
      var res := r.value;
      && |res.actions| >= 2
      && res.actions[..2] == [MakeDirectory(dir), CheckAbsent(dst)]
      && (dst in fs ==> res == FileResult(fs, Failed(DestinationExists), res.actions[..2]))
      && (dst !in fs ==> |res.actions| >= 3 && res.actions[2] == RunEncoder(kind, src, dst))
      && (dst !in fs ==> (Produced(w, fs, kind, src, dst) <==> dst in res.fs))
      && (Produced(w, fs, kind, src, dst) ==> res.fs[dst].size == OutputSize(w, x, dst, w.encode(src).value))
      && (dst !in fs && !Produced(w, fs, kind, src, dst) ==> res.verdict == Failed(EncoderFailed))
      && (res.verdict.Warned? <==>
            Produced(w, fs, kind, src, dst) && ChooseDate(x).Ok? &&
            src in res.fs && res.fs[dst].size >= res.fs[src].size)
      && (res.verdict.Warned? ==> res.verdict.output == dst)
      && (res.verdict == Done <==>
            Produced(w, fs, kind, src, dst) && ChooseDate(x).Ok? &&
            src in res.fs && res.fs[dst].size < res.fs[src].size)
      && (!res.verdict.Failed? ==>
            |res.actions| >= 5 &&
            res.actions[3] == WriteDates(dst, ChooseDate(x).value) &&
            res.actions[|res.actions| - 1] == CompareSizes(src, dst))
      && (forall k :: k in fs && k != BackupPath(dst) ==> k in res.fs && res.fs[k] == fs[k])
      && (forall k :: k in res.fs ==> k in fs || k == dst || k == BackupPath(dst))
  {
    if !w.mkdirOk(dir) then Err(OutputDirectoryFailed(dir))
    else
      var checked := [MakeDirectory(dir), CheckAbsent(dst)];
      if ThrowIfFileExists(fs, dst).Some? then
        Ok(FileResult(fs, Failed(DestinationExists), checked))
      else
        var rest := EncodeAndStamp(w, kind, src, dst, x, fs);
        Ok(rest.(actions := checked + rest.actions))
  }

  /**
   `convertImage` and `convertVideo` in full: the output path for `kind`,
   then ConvertTo, whose contract says the rest.
   */
  function ConvertMedia(outputRoot: string, w: World, kind: Disposition, src: string, x: Exif, fs: FileSystem)
    : (r: Result<FileResult, Abort>)
    requires kind != CopyOriginal
    ensures r.Err? <==> !w.mkdirOk(OutputDirectory(outputRoot, src))
    ensures r.Ok? && OutputPath(outputRoot, src, kind) in fs ==>
      r.value.fs == fs && r.value.verdict == Failed(DestinationExists) && EncoderFree(r.value.actions)
    ensures r.Ok? && !r.value.verdict.Failed? ==> OutputPath(outputRoot, src, kind) in r.value.fs
  {
    ConvertTo(w, kind, src, OutputDirectory(outputRoot, src), OutputPath(outputRoot, src, kind), x, fs)
  }

  /**
   `copyOriginalFile` (convert.js:125-136) once the output directory `dir`
   and path `dst` are built: create the directory, copy with exclusive create
   (an existing destination is an error, never overwritten), stamp the date.
   The copy is byte for byte, so it carries the source's embedded capture
   date until the stamper rewrites it. No size comparison.
   */
  function CopyTo(w: World, src: string, dir: string, dst: string, x: Exif, fs: FileSystem)
    : (r: Result<FileResult, Abort>)
    ensures r.Err? <==> !w.mkdirOk(dir)
    ensures r.Ok? ==>
      var res := r.value;
      && |res.actions| >= 2
      && res.actions[..2] == [MakeDirectory(dir), CopyExclusive(src, dst)]
      && !res.verdict.Warned?
      && (dst in fs ==> res.fs == fs && res.verdict.Failed?)
      && (src in fs && dst in fs ==> res.verdict == Failed(DestinationExists))
      && (src !in fs && dst !in fs ==> res.verdict == Failed(CopyFailed))
      && EncoderFree(res.actions)
      && (dst !in fs ==> (Produced(w, fs, CopyOriginal, src, dst) <==> dst in res.fs))
      && (Produced(w, fs, CopyOriginal, src, dst) ==> res.fs[dst].size == OutputSize(w, x, dst, fs[src].size))
      && (Produced(w, fs, CopyOriginal, src, dst) ==>
            res.fs[dst].embeddedDate == OutputDate(w, x, dst, fs[src].embeddedDate))
      && (res.verdict == Done <==> Produced(w, fs, CopyOriginal, src, dst) && ChooseDate(x).Ok?)
      && (forall k :: k in fs && k != BackupPath(dst) ==> k in res.fs && res.fs[k] == fs[k])
      && (forall k :: k in res.fs ==> k in fs || k == dst || k == BackupPath(dst))
  {
    if !w.mkdirOk(dir) then Err(OutputDirectoryFailed(dir))
    else
      var attempted := [MakeDirectory(dir), CopyExclusive(src, dst)];
      if src !in fs then Ok(FileResult(fs, Failed(CopyFailed), attempted))
      else if dst in fs then Ok(FileResult(fs, Failed(DestinationExists), attempted))
      else if !w.copyOk(src) then Ok(FileResult(fs, Failed(CopyFailed), attempted))
      else
        var copied := fs[dst := FileNode(fs[src].size, None, fs[src].embeddedDate)];
        match SetDateTime(w, copied, dst, x)
        case Err(e) => Ok(FileResult(copied, Failed(DateUnavailable(e)), attempted))
        case Ok(stamped) => Ok(FileResult(stamped.fs, Done, attempted + stamped.actions))
  }

  /**
   `copyOriginalFile` in full: the output path with the source's own
   extension, then CopyTo, whose contract says the rest.
   */
  function CopyOriginalFile(outputRoot: string, w: World, src: string, x: Exif, fs: FileSystem)
    : (r: Result<FileResult, Abort>)
    ensures r.Err? <==> !w.mkdirOk(OutputDirectory(outputRoot, src))
    ensures r.Ok? && OutputPath(outputRoot, src, CopyOriginal) in fs ==>
      r.value.fs == fs && r.value.verdict.Failed?
    ensures r.Ok? && src in fs && OutputPath(outputRoot, src, CopyOriginal) in fs ==>
      r.value.verdict == Failed(DestinationExists)
    ensures r.Ok? && !r.value.verdict.Failed? ==> OutputPath(outputRoot, src, CopyOriginal) in r.value.fs
    ensures r.Ok? ==> EncoderFree(r.value.actions)
  {
    CopyTo(w, src, OutputDirectory(outputRoot, src), OutputPath(outputRoot, src, CopyOriginal), x, fs)
  }
}

=== FILE: walk.dfy ===
/**
 The tree walker `getFiles` (convert.js:15-29): a depth-first traversal of the
 input tree, in directory-listing order, that keeps every non-directory entry
 whose base name does not start with '.', and enters every directory whatever
 its name. A directory that cannot be listed makes the whole walk fail.
 */
module TreeWalk {
  import opened Base
  import opened Paths

  /**
   One entry of a directory listing as `readdir(..., { withFileTypes: true })`
   reports it, together with what listing it would yield when it is a
   directory. Symbolic links and other special files are non-directories.
   */
  datatype Entry =
    | NonDirectory(name: string)
    | Directory(name: string, children: seq<Entry>)
    | UnlistableDirectory(name: string)

  /** Entry names the operating system hands out: plain segments. */
  ghost predicate WellFormed(es: seq<Entry>)
    decreases es
  {
    forall i :: 0 <= i < |es| ==>
      PlainSegment(es[i].name) &&
      (es[i].Directory? ==> WellFormed(es[i].children))
  }

  /** A hidden file: its base name starts with '.'. */
  predicate Hidden(base: string)
  {
    "." <= base
  }

  /** Concatenation of two walk results; a failed walk spoils the whole result. */
  function Concat(a: Option<seq<string>>, b: Option<seq<string>>): Option<seq<string>>
  {
    if a.None? || b.None? then None else Some(a.value + b.value)
  }

  lemma ConcatAssociative(a: Option<seq<string>>, b: Option<seq<string>>, c: Option<seq<string>>)
    ensures Concat(Concat(a, b), c) == Concat(a, Concat(b, c))
  {
    if a.Some? && b.Some? && c.Some? {
      assert (a.value + b.value) + c.value == a.value + (b.value + c.value);
    }
  }

  lemma ConcatEmpty(a: Option<seq<string>>)
    ensures Concat(Some([]), a) == a && Concat(a, Some([])) == a
  {
    if a.Some? {
      assert [] + a.value == a.value && a.value + [] == a.value;
    }
  }

  /** What one entry of the directory at `path` contributes to the walk. */
  function WalkEntry(path: string, e: Entry): Option<seq<string>>
    decreases e, 1
  {
    match e
    case NonDirectory(n) =>
      var full := Join(path, n);
      if Hidden(Basename(full)) then Some([]) else Some([full])
    case Directory(n, children) => WalkEntries(Join(path, n), children)
    case UnlistableDirectory(_) => None
  }

  /** The walk of the entries `es` of the directory at `path`, in listing order. */
  function WalkEntries(path: string, es: seq<Entry>): Option<seq<string>>
    decreases es, 0
  {
    if es == [] then Some([])
    else Concat(WalkEntry(path, es[0]), WalkEntries(path, es[1..]))
  }

  /**
   `getFiles(root)`: the files of the tree rooted at `root`, whose listing is
   `listing`. A root that cannot be listed throws, and so does any directory
   below it; WalkMembership says which files a successful walk lists.
   */
  function GetFiles(root: string, listing: Option<seq<Entry>>): (r: Option<seq<string>>)
    ensures listing.None? ==> r.None?
    ensures listing.Some? && listing.value == [] ==> r == Some([])
  {
    if listing.None? then None else WalkEntries(root, listing.value)
  }

  /** Sibling order: the walk of `a + b` is the walk of `a` followed by the walk of `b`. */
  lemma {:induction false} WalkEntriesAppend(path: string, a: seq<Entry>, b: seq<Entry>)
    ensures WalkEntries(path, a + b) == Concat(WalkEntries(path, a), WalkEntries(path, b))
    decreases |a|
  {
    if a == [] {
      assert a + b == b;
      ConcatEmpty(WalkEntries(path, b));
    } else {
      assert (a + b)[0] == a[0];
      assert (a + b)[1..] == a[1..] + b;
      WalkEntriesAppend(path, a[1..], b);
      ConcatAssociative(WalkEntry(path, a[0]), WalkEntries(path, a[1..]), WalkEntries(path, b));
    }
  }

  /** `x` is the joined path of a non-directory entry reachable through `e` in the directory at `path`. */
  ghost predicate EntryReaches(path: string, e: Entry, x: string)
    decreases e, 1
  {
    match e
    case NonDirectory(n) => x == Join(path, n)
    case Directory(n, children) => Reaches(Join(path, n), children, x)
    case UnlistableDirectory(_) => false
  }

  /** `x` is the joined path of some non-directory entry reachable from the directory at `path`. */
  ghost predicate Reaches(path: string, es: seq<Entry>, x: string)
    decreases es, 0
  {
    exists i :: 0 <= i < |es| && EntryReaches(path, es[i], x)
  }

  lemma WellFormedTail(es: seq<Entry>)
    requires es != [] && WellFormed(es)
    ensures WellFormed(es[1..])
  {
    forall i | 0 <= i < |es[1..]|
      ensures PlainSegment(es[1..][i].name) && (es[1..][i].Directory? ==> WellFormed(es[1..][i].children))
    {
      assert es[1..][i] == es[i + 1];
    }
  }

  lemma ReachesCons(path: string, es: seq<Entry>, x: string)
    requires es != []
    ensures Reaches(path, es, x) <==> EntryReaches(path, es[0], x) || Reaches(path, es[1..], x)
  {
    if Reaches(path, es, x) {
      var i :| 0 <= i < |es| && EntryReaches(path, es[i], x);
      if i > 0 {
        assert es[1..][i - 1] == es[i];
      }
    }
    if Reaches(path, es[1..], x) {
      var i :| 0 <= i < |es[1..]| && EntryReaches(path, es[1..][i], x);
      assert es[i + 1] == es[1..][i];
    }
  }

  /**
   Membership in a successful walk: a path is listed exactly when it is the
   path of a reachable non-directory entry whose base name is not hidden.
   Directories are entered whatever their name; only files are filtered.
   */
  lemma {:induction false} WalkMembership(path: string, es: seq<Entry>, files: seq<string>, x: string)
    requires WellFormed(es)
    requires WalkEntries(path, es) == Some(files)
    ensures x in files <==> Reaches(path, es, x) && !Hidden(Basename(x))
    decreases es, 0
  {
    if es != [] {
      var first := WalkEntry(path, es[0]);
      var rest := WalkEntries(path, es[1..]);
      assert first.Some? && rest.Some? && files == first.value + rest.value;
      WellFormedTail(es);
      WalkMembership(path, es[1..], rest.value, x);
      EntryMembership(path, es[0], first.value, x);
      ReachesCons(path, es, x);
    }
  }

  /** The single-entry case of `WalkMembership`. */
  lemma {:induction false} EntryMembership(path: string, e: Entry, files: seq<string>, x: string)
    requires PlainSegment(e.name) && (e.Directory? ==> WellFormed(e.children))
    requires WalkEntry(path, e) == Some(files)
    ensures x in files <==> EntryReaches(path, e, x) && !Hidden(Basename(x))
    decreases e, 1
  {
    match e
    case NonDirectory(n) =>
      BasenameOfJoin(path, n);
    case Directory(n, children) =>
      WalkMembership(Join(path, n), children, files, x);
  }

  /** A hidden directory is still entered: its visible files are listed. */
  lemma HiddenDirectoryEntered(path: string, n: string, children: seq<Entry>, files: seq<string>)
    requires Hidden(n)
    requires WalkEntries(Join(path, n), children) == Some(files)
    ensures WalkEntries(path, [Directory(n, children)]) == Some(files)
  {
    var d := Directory(n, children);
    assert [d][1..] == [];
    assert WalkEntries(path, [d]) == Concat(WalkEntry(path, d), Some([]));
    ConcatEmpty(Some(files));
  }

  /** Every listed path is the path of a visible file: its base name does not start with '.'. */
  lemma {:induction false} WalkListsOnlyVisible(path: string, es: seq<Entry>, files: seq<string>)
    requires WellFormed(es)
    requires WalkEntries(path, es) == Some(files)
    ensures forall x :: x in files ==> !Hidden(Basename(x)) && PlainSegment(Basename(x))
  {
    forall x | x in files
      ensures !Hidden(Basename(x)) && PlainSegment(Basename(x))
    {
      WalkMembership(path, es, files, x);
      ReachedBasename(path, es, x);
    }
  }

  /** The base name of a reached path is the name of its entry, hence a plain segment. */
  lemma {:induction false} ReachedBasename(path: string, es: seq<Entry>, x: string)
    requires WellFormed(es)
    requires Reaches(path, es, x)
    ensures PlainSegment(Basename(x))
    decreases es
  {
    var i :| 0 <= i < |es| && EntryReaches(path, es[i], x);
    match es[i]
    case NonDirectory(n) =>
      BasenameOfJoin(path, n);
    case Directory(n, children) =>
      ReachedBasename(Join(path, n), children, x);
  }

  // An explicit-stack formulation of the same traversal: a worklist of
  // (directory path, entry) pairs processed front to back.

  function EntrySize(e: Entry): nat
    decreases e, 1
  {
    match e
    case NonDirectory(_) => 1
    case Directory(_, children) => 1 + ListSize(children)
    case UnlistableDirectory(_) => 1
  }

  function ListSize(es: seq<Entry>): nat
    decreases es, 0
  {
    if es == [] then 0 else EntrySize(es[0]) + ListSize(es[1..])
  }

  function WorkSize(work: seq<(string, Entry)>): nat
  {
    if work == [] then 0 else EntrySize(work[0].1) + WorkSize(work[1..])
  }

  /** The walk a worklist stands for. */
  function WalkWork(work: seq<(string, Entry)>): Option<seq<string>>
  {
    if work == [] then Some([]) else Concat(WalkEntry(work[0].0, work[0].1), WalkWork(work[1..]))
  }

  /** The worklist holding the entries of the directory at `path`. */
  function Pending(path: string, es: seq<Entry>): (work: seq<(string, Entry)>)
    ensures |work| == |es|
    ensures forall i :: 0 <= i < |es| ==> work[i] == (path, es[i])
  {
    if es == [] then [] else [(path, es[0])] + Pending(path, es[1..])
  }

  lemma {:induction false} WalkWorkAppend(a: seq<(string, Entry)>, b: seq<(string, Entry)>)
    ensures WalkWork(a + b) == Concat(WalkWork(a), WalkWork(b))
    ensures WorkSize(a + b) == WorkSize(a) + WorkSize(b)
    decreases |a|
  {
    if a == [] {
      assert a + b == b;
      ConcatEmpty(WalkWork(b));
    } else {
      assert (a + b)[0] == a[0];
      assert (a + b)[1..] == a[1..] + b;
      WalkWorkAppend(a[1..], b);
      ConcatAssociative(WalkEntry(a[0].0, a[0].1), WalkWork(a[1..]), WalkWork(b));
    }
  }

  lemma {:induction false} WalkWorkPending(path: string, es: seq<Entry>)
    ensures WalkWork(Pending(path, es)) == WalkEntries(path, es)
    ensures WorkSize(Pending(path, es)) == ListSize(es)
    decreases |es|
  {
    if es != [] {
      WalkWorkPending(path, es[1..]);
    }
  }

  /** Taking a non-directory entry off the worklist: the walk loses exactly the file it lists. */
  lemma FileStep(acc: seq<string>, path: string, n: string, rest: seq<(string, Entry)>)
    ensures var full := Join(path, n);
      Concat(Some(if Hidden(Basename(full)) then acc else acc + [full]), WalkWork(rest)) ==
      Concat(Some(acc), WalkWork([(path, NonDirectory(n))] + rest))
  {
    var work := [(path, NonDirectory(n))] + rest;
    assert work[0] == (path, NonDirectory(n)) && work[1..] == rest;
    var full := Join(path, n);
    ConcatAssociative(Some(acc), WalkEntry(path, NonDirectory(n)), WalkWork(rest));
    if Hidden(Basename(full)) {
      assert acc + [] == acc;
    }
  }

  /** Replacing a directory entry by its children keeps the walk and shrinks the worklist. */
  lemma DirectoryStep(acc: seq<string>, path: string, n: string, children: seq<Entry>, rest: seq<(string, Entry)>)
    ensures Concat(Some(acc), WalkWork(Pending(Join(path, n), children) + rest)) ==
      Concat(Some(acc), WalkWork([(path, Directory(n, children))] + rest))
    ensures WorkSize(Pending(Join(path, n), children) + rest) < WorkSize([(path, Directory(n, children))] + rest)
  {
    var work := [(path, Directory(n, children))] + rest;
    assert work[0] == (path, Directory(n, children)) && work[1..] == rest;
    var inner := Pending(Join(path, n), children);
    WalkWorkPending(Join(path, n), children);
    WalkWorkAppend(inner, rest);
  }

  /** A directory that cannot be listed spoils the walk of any worklist it heads. */
  lemma UnlistableStep(acc: seq<string>, path: string, n: string, rest: seq<(string, Entry)>)
    ensures Concat(Some(acc), WalkWork([(path, UnlistableDirectory(n))] + rest)) == None
  {
    var work := [(path, UnlistableDirectory(n))] + rest;
    assert work[0] == (path, UnlistableDirectory(n)) && work[1..] == rest;
  }

  /**
   The traversal with an explicit stack instead of recursion; it lists the
   same files in the same order and fails exactly when the recursive walk does.
   */
  method GetFilesIterative(root: string, listing: Option<seq<Entry>>) returns (r: Option<seq<string>>)
    ensures r == GetFiles(root, listing)
  {
    if listing.None? {
      return None;
    }
    var work := Pending(root, listing.value);
    WalkWorkPending(root, listing.value);
    var acc: seq<string> := [];
    ConcatEmpty(WalkWork(work));
    while work != []
      invariant Concat(Some(acc), WalkWork(work)) == GetFiles(root, listing)
      decreases WorkSize(work)
    {
      var (path, e) := work[0];
      var rest := work[1..];
      match e {
        case NonDirectory(n) =>
          FileStep(acc, path, n, rest);
          var full := Join(path, n);
          if !Hidden(Basename(full)) {
            acc := acc + [full];
          }
          work := rest;
        case UnlistableDirectory(n) =>
          UnlistableStep(acc, path, n, rest);
          return None;
        case Directory(n, children) =>
          DirectoryStep(acc, path, n, children, rest);
          work := Pending(Join(path, n), children) + rest;
      }
    }
    ConcatEmpty(Some(acc));
    r := Some(acc);
  }
}
